=== FILE: README.md ===
# Survey evaluation pipeline — a Dafny model

This project models the core of the SSC event-evaluation app (`MainWidget` in
`main.py`). The app takes a spreadsheet of survey responses:

- Its header is split into rating categories by keyword: Coordination,
  Objectives, Feedback, Discussions, Accessibility, Other.
- Every response row is read into a tree of per-category entries: star ratings,
  or free text for Feedback.
- Each category's entries are aggregated into five-bucket star histograms per
  question (the "subcategory").
- The screen shows one subcategory at a time: its name without list numbering,
  its star counts and percentages, and a four-level verdict with a colour. The
  next and previous buttons move through the subcategories.
- A separate pass labels the comments of a comment file as Positive, Negative
  or Neutral, counts them and picks the dominant mood.

The model is functional. Rows and headers are sequences of strings, and every
step of the pipeline is a pure function. The trained sentiment classifier enters
as four opaque functions.

| file | module | what it models |
|---|---|---|
| results.dfy | `Results` | `Option` and `Result` |
| text.dfy | `Text` | `simplify_text`, from ASCII `lower`, `replace(" ", "")`, `strip` and `in` |
| seqs.dfy | `Seqs` | first-seen order of an insertion-ordered dictionary |
| columns.dfy | `Columns` | the keyword classification of one column |
| category_map.dfy | `CategoryMap` | `categorize_columns`, and the category-grouped reading order |
| responses.dfy | `Responses` | `process_csv_to_3d_list` after the file is split into cells |
| aggregation.dfy | `Aggregation` | `aggregate_subcategories` |
| scoring.dfy | `Scoring` | percentages, weighted average, verdict and colour |
| display.dfy | `Display` | the list-number strip and the screen record |
| navigation.dfy | `Navigation` | `next_subcategory` / `prev_subcategory` on the cursor |
| sentiment.dfy | `Sentiment` | comment-column discovery, neutral override, counts, dominant mood |
| session.dfy | `Session` | load, view and the two buttons together |

Some behaviour of main.py that the model reproduces:

- **Each column is classified on its own.** `current_category` is reassigned
  for every column, and a column matching no keyword set is filed under
  "Other" (main.py:109-110).
- **Reading a row only converts ratings with `int()`.** A row raises
  `ValueError` when a rating cell is not an integer (main.py:133). It raises
  `IndexError` when it is shorter than the cells it needs (main.py:133, 136).
  The model returns these as the parse errors `NotAnInteger` and
  `MissingCell`. Ratings outside 1..5 pass parsing.
- **Aggregation stops at the first entry without a rating.** Entries are
  visited in order (main.py:146-152):
  - An entry with a non-empty name and a rating of 0, or a text entry with a
    non-empty name, returns the "NUN" sentinel at once (main.py:147-148).
  - An entry with an empty name never triggers the sentinel. Its rating
    `stars` goes to list index `stars - 1` (main.py:152), so a 0 lands in
    bucket 4, the last bucket.
  - A rating from -4 to -1 counts in bucket `stars + 4`, through Python's
    negative list index.
  - Any other rating raises `IndexError` at main.py:152 when it is reached,
    and a text entry with an empty name raises `KeyError` at main.py:151.
    An entry after one that returned the sentinel is never reached. The
    model states exactly this as the precondition `Aggregation.Aggregable`.
- **Comment-column search is keyword-first.** The search loops over keywords in
  priority order, and over the columns inside that loop (main.py:235-241). The
  first keyword that occurs in some column decides, even when another column
  comes earlier in the header.
- **A parse error escapes `open_csv`.** `ValueError` and `IndexError`
  propagate out of it after it has reset the cursor (main.py:177-179), and the
  screen values are not updated. `Session.Load` returns the error as `Err`.

## Model

| member | source | states |
|---|---|---|
| Text.Lower | main.py:89 | each character is lower-cased in place, and no upper-case letter remains |
| Text.RemoveSpaces | main.py:89 | no space remains and no character is added |
| Text.RemoveSpacesKeepsOthers | main.py:89 | every character other than a space is kept as often as it occurs |
| Text.RemoveSpacesAppend | main.py:89 | removing spaces works piecewise, so the kept characters stay in order |
| Text.Strip | main.py:89 | the result is no longer than the input, uses only its characters, and neither starts nor ends with whitespace |
| Text.StripIsStripped | main.py:89 | the result is a slice of the input with only whitespace before and after it |
| Text.StrippedUnique | main.py:89 | only one slice of a string is its stripping, so the stripped result is determined |
| Text.Simplify | main.py:87-89 | the normalised name has no spaces and no upper-case letters, does not start or end with whitespace, and is no longer than the input |
| Text.SimplifyIsStripped | main.py:87-89 | the normalised name is exactly the stripping of the lower-cased name with its spaces removed |
| Text.SimplifyIdempotent | main.py:87-89 | normalising an already normalised name changes nothing |
| Columns.Classify | main.py:96-110 | the chosen category's keyword set occurs in the normalised name, and no set of higher priority does; so "Other" exactly when no set matches |
| Columns.Fields | main.py:96 | the columns from index 4 on, none when the header has four or fewer |
| CategoryMap.Insert | main.py:111 | appending to a category's list keeps the keys, or adds the new key last with a one-column list, and changes no other list |
| CategoryMap.File | main.py:91-113 | `CategorizeColumns` is `File` of the classified header fields: the keys are the categories in first-seen header order, and each key's list is exactly the columns classified into it, in header order |
| CategoryMap.GroupsNonEmpty | main.py:111 | every key owns at least one column |
| CategoryMap.ClassifiedColumnsNamed | main.py:96-111 | every listed column was classified into its key, and a column filed under anything but Other has a non-empty name |
| CategoryMap.OffsetSlot | main.py:124-138 | column `j` of key `i` is read at place `Offset(i) + j` of the grouped reading order, so a key's columns are read at consecutive places |
| CategoryMap.GroupedIsPermutation | main.py:124-138 | the grouped reading order is a permutation of the header columns, so every column is read exactly once |
| CategoryMap.GroupedOrderIsHeaderOrder | main.py:124-138 | the reading order equals the header order exactly when every category's columns form one contiguous block |
| Responses.ParseShow | main.py:133 | the integer parser `ParseInt` reads back every printed integer |
| Responses.ReadCell | main.py:131-137 | a Feedback cell is kept as text; any other cell is a rating when it parses as an integer and an error otherwise |
| Responses.ParseRow | main.py:123-138 | a read row has one entry per column; an error names the row it occurred in |
| Responses.ParseRowReads | main.py:124-138 | a row reads without error exactly when every cell it needs exists and reads; entry `k` is then read from cell `4 + k` |
| Responses.ParseRowFirstError | main.py:133 | a failing row reports its first missing or non-integer cell |
| Responses.BuildTree | main.py:115-140 | a built tree has no nodes without rows, and otherwise one node per key holding each row's block of entries in row-major order |
| Responses.BuildTreeFirstError | main.py:123-133 | a failed parse reports the error of the first row that cannot be read |
| Responses.TreeReadsCells | main.py:123-138 | entry `r * w + j` of node `i` is column `j` of key `i` read from row `r` at cell `4 + Offset + j` |
| Responses.TreeShape | main.py:123-140 | no rows give an empty tree; otherwise node `i` has the key's category and rows × columns entries |
| Responses.NodeEntryColumn | main.py:131-137 | every entry of a node was read from one of its key's columns |
| Aggregation.Bucket | main.py:152 | the bucket is a valid index of five, and a rating `r >= 1` lands in bucket `r - 1` |
| Aggregation.Bump | main.py:152 | incrementing a name's bucket keeps or extends the name order and changes only that bucket |
| Aggregation.AggregablePrefix | main.py:146-152 | an entry is reached, and must be indexable, exactly when no earlier entry returned the sentinel |
| Aggregation.Aggregate | main.py:142-158 | the sentinel exactly when some entry lacks a (non-zero) rating but has a name; otherwise one histogram per distinct name in first-seen order, bucket `b` counting that name's ratings in bucket `b` |
| Aggregation.VotesCountEntries | main.py:146-158 | the histograms of a non-degraded category hold as many votes as there are entries |
| Aggregation.SubcategoriesNonEmpty | main.py:146-158 | a category with entries always shows at least one summary |
| Aggregation.FeedbackIsSentinel | main.py:147-148 | in a survey with responses, the Feedback category always degrades to the sentinel |
| Aggregation.SentinelBeforeOutOfRange | main.py:146-152 | a rating of 0 under a name followed by a rating of 9 degrades the category instead of raising |
| Scoring.Percent | main.py:189 | a share is between 0 and 100, is 0 without votes, and times the total equals the votes times 100 |
| Scoring.Percentages | main.py:189 | five shares, each in [0, 100], all 0 without votes |
| Scoring.PercentagesProportional | main.py:189 | each share times the number of votes equals its bucket's votes times 100 |
| Scoring.PercentagesSumTo100 | main.py:189 | with votes the five shares add up to 100 |
| Scoring.PercentagesMonotone | main.py:189 | a fuller bucket never has a smaller share |
| Scoring.PercentOrder | main.py:277-279 | shares of one total compare exactly as their counts do |
| Scoring.Average | main.py:200-206 | the weighted average is 0 without votes and otherwise lies in [1, 5], and times the total equals the weighted sum |
| Scoring.Rate | main.py:208-219 | the verdict ladder: at least 4.8, [3.5, 4.8), [2.5, 3.5), below 2.5 |
| Scoring.RateMonotone | main.py:208-219 | a higher average never gets a worse verdict |
| Scoring.JudgeByCounts | main.py:200-219 | the verdict `Judge` of a histogram in whole numbers: very satisfactory iff `5w >= 24t`, satisfactory iff `2w >= 7t` and not that, needs improvement iff `2w >= 5t` and not that, and the lowest verdict without votes |
| Scoring.JudgeBoundary | main.py:208-219 | an average of exactly 4.8 (four fives and a four) is very satisfactory, adding a second four drops it to satisfactory, and no votes or a single one-star vote is the lowest verdict |
| Display.StripNumbering | main.py:191 | the result is a suffix of the name, and a name that does not start with a digit is unchanged |
| Display.StripNumberingRemovesNumber | main.py:191 | what is removed is digits, a full stop and whitespace, and what remains does not start with whitespace |
| Display.StripNumberingOfAnyNumber | main.py:191 | a name that starts with a list number always loses it |
| Display.StripNumberingOfNumbered | main.py:191 | numbering a name that does not start with whitespace, with any gap of whitespace after the full stop, and stripping it gives the name back |
| Display.StripNumberingOnce | main.py:191 | only the first of two list numbers is removed |
| Display.Present | main.py:187-219 | the screen shows the category, the name without its list number, the star counts, their percentages and the verdict of their weighted average in its colour |
| Navigation.Next | main.py:308-319 | next stays in the category or goes to the first summary of the following one, and stops exactly at the last summary of the last category |
| Navigation.Prev | main.py:296-306 | previous stays in the category or goes to the first summary of the previous one, and stays put exactly at the very start |
| Navigation.MovesStayValid | main.py:296-319 | when every category shows a summary, neither move leaves the survey |
| Navigation.ForwardIsSuccessor | main.py:308-319 | next (`Navigation.Forward`) advances the flattened index by one, and there is no next exactly at the last summary |
| Navigation.PrevIndex | main.py:296-306 | previous moves back one inside a category, but from a category's first summary it jumps back over the whole previous category |
| Navigation.PrevAfterForward | main.py:296-319 | previous undoes next inside a category, but across a category boundary it lands on the first summary |
| Navigation.EndsAreStops | main.py:296-319 | previous at the start and next at the last summary are no-ops |
| Sentiment.UnsureNearEven | main.py:255 | for a probability distribution the neutral override fires exactly when both probabilities lie in (0.42, 0.58) |
| Sentiment.Label | main.py:252-261 | an unsure comment is Neutral; any other gets the decoded prediction of its vectorised text |
| Sentiment.Labels | main.py:250-266 | one label per comment, in row order |
| Sentiment.Count | main.py:268-274 | a count never exceeds the number of labels |
| Sentiment.CountIsMultiplicity | main.py:268-274 | a count is the number of labels equal to its tag |
| Sentiment.CountsCoverRows | main.py:268-274 | the three counts add up to at most the rows, and exactly to them iff every label is one of the three |
| Sentiment.Dominant | main.py:285-291 | the dominant mood has the largest share, and on a tie it is the one listed first: POSITIVE, NEUTRAL, NEGATIVE |
| Sentiment.DominantOfCounts | main.py:276-291 | the dominant mood by shares is the dominant mood by counts, and POSITIVE when there are no rows |
| Sentiment.FirstNaming | main.py:236-239 | the first column whose lower-cased name contains the keyword, or none when no column does |
| Sentiment.FindFrom | main.py:235-241 | keywords are tried in order and the first one found decides |
| Sentiment.FindComments | main.py:233-245 | the found column contains its keyword; none is found exactly when no column contains any keyword |
| Sentiment.PluralNeverDecides | main.py:235-241 | the keyword "comments" never decides, as every column containing it also contains "comment" |
| Sentiment.Summarise | main.py:268-292 | each count is the number of labels equal to its tag, each share is that count in percent of the rows, the dominant mood has the largest share (first listed on a tie) and is the dominant one by counts, and its share is the exact share rounded down to a whole percentage |
| Sentiment.Analyze | main.py:233-292 | missing column exactly when there are no rows or no comment column; otherwise every row's comment is labelled in order, and the report's counts, shares and dominant mood are those `Sentiment.Summarise` gives for these labels |
| Session.Load | main.py:177-179 | a load succeeds exactly when the survey parses (`ParseSurvey`, which is `BuildTree` over `CategorizeColumns`), and it puts the cursor on the first summary |
| Session.View | main.py:321-365 | a screen is shown exactly when the cursor is on an existing summary; it shows that category, the summary's name without its list number, its star counts, their percentages and their verdict |
| Session.Forward | main.py:308-326 | next needs only the current category's aggregated list; it keeps the tree, moves the cursor to the navigation's successor, and gives nothing when there is no next summary |
| Session.Back | main.py:296-306 | previous keeps the tree and moves the cursor back, and changes nothing exactly at the very start |
| Session.ForwardAdvances | main.py:308-319 | on a showing session next moves one summary on in the flattened list, and there is none exactly at the last summary |
| Session.BackRetreats | main.py:296-306 | on a showing session previous moves back one summary inside a category, and from a category's first summary back over the whole previous category |
| Session.LoadShows | main.py:177-187 | a survey with a response and a classified column loads into a session that shows a screen |
| Session.MovesKeepShowing | main.py:296-329 | after next or previous the session still shows a screen |

## Left out

- The Kivy user interface. This covers window setup, the file manager and
  popups, the canvas bars and pie chart, and the `.csv` suffix checks. Only the
  values the screen shows are modelled.
- File I/O and CSV tokenisation. The header and rows arrive already split into
  cells. The hard-coded path of the comment file is not modelled.
- The sentiment classifier: the vectorizer, naive Bayes model and label encoder
  loaded with `joblib`. These are the four opaque functions of
  `Sentiment.Classifier`.
- Floating point. Percentages, averages and probabilities are exact reals, so
  rounding near the 4.8, 3.5 and 2.5 thresholds is not modelled.
  `Scoring.JudgeByCounts` gives the exact integer reading.
- Scoring.PercentagesSumTo100: the shares add up to exactly 100 only over
  exact reals. In floating point the votes [1, 1, 1, 0, 0] give shares that
  add up to 99.99999999999999.
- Sentiment.Summarise: `dominantShare` is the floor of the exact share. The
  source truncates the floating-point `(count / total) * 100` (main.py:277-279,
  292), which can fall just below a whole number: 57 of 100 gives
  56.99999999999999 and shows 56. So the model's value can be one more than
  the source's whenever the exact share is a whole number.
- `int()` accepts surrounding whitespace, underscores and non-ASCII digits. The
  model's parser accepts only an optional sign followed by ASCII digits.
  `lower()`, `\d` and `\s` are likewise ASCII only.
- The sentinel is a `dict` in the source (main.py:148). Indexing it like a list
  (main.py:187, 329) raises. The model makes the sentinel a list holding one
  "NUN" summary with no votes.
- Aggregation.Aggregate: requires `Aggregable`. Where that fails the source
  raises `IndexError` or `KeyError` (main.py:151-152), and the model has no
  result for it.
- Session.Forward: requires the cursor's category to exist, so a loaded
  survey whose tree is empty is excluded. That happens for a header-only file
  or a header of four columns or fewer. The source then leaves the cursor at
  (0, 0) (main.py:177-187), and next moves along the previous survey's stale
  `sub_category_list`, or raises `AttributeError` when no survey was shown
  before (main.py:308-312). Like the source, next needs only the current
  category to aggregate; the clauses relating it to `Navigation.Forward`
  hold when every category does (`WellRated`).
- Session.View: requires `WellRated`, that every category of the tree is
  `Aggregable`. The source aggregates only the current category (main.py:184,
  326), so a tree whose other categories would raise still shows the current
  one there, while the model gives no result.
- A row shorter than the header makes the source raise `IndexError`. The model
  reports it as the `MissingCell` parse error.
- Sentiment.Analyze: requires every comment row to have a cell for every
  column. The source's `csv.DictReader` would put `None` into short rows and
  gather overlong rows under a `None` key, which then crashes `key.lower()`.
  Duplicate column names are not modelled either.
- The position reset of `open_csv` before a failed parse (main.py:177-179),
  and the stale subcategory list it leaves behind: the parse error escapes
  `open_csv`.
- test2.py is a drawing demo with no pipeline logic.

=== FILE: aggregation.dfy ===
/** Star aggregation (`aggregate_subcategories` in main.py): the entries of one
    category are grouped by subcategory name into five-bucket star histograms,
    unless some entry has no rating, in which case the whole category degrades
    to the `"NUN"` sentinel. */
module Aggregation {
  import opened Results
  import opened Seqs
  import opened Columns
  import opened CategoryMap
  import opened Responses

  /** Star counts; bucket `b` counts the ratings `b + 1`. */
  type Histogram = h: seq<nat> | |h| == 5 witness [0, 0, 0, 0, 0]

  const Empty: Histogram := [0, 0, 0, 0, 0]

  datatype Summary = Summary(subcategory: string, stars: Histogram)

  /** The two shapes of the result: the sentinel, or one summary per name. */
  datatype Aggregated = Sentinel | Groups(groups: seq<Summary>)

  /** The summaries the display walks through; the sentinel is shown as the
      single summary `"NUN"` with no stars. */
  function Subcategories(a: Aggregated): seq<Summary> {
    match a
    case Sentinel => [Summary("NUN", Empty)]
    case Groups(gs) => gs
  }

  /** The sentinel test of main.py:147, `not (stars or not name)`: the entry has
      no rating, or a rating of 0, and has a non-empty name. */
  predicate Missing(e: Entry) {
    match e
    case Rating(name, stars) => stars == 0 && name != ""
    case Remark(name, _) => name != ""
  }

  /** What the aggregation needs of an entry for the source not to raise: a
      rating whose index `stars - 1` is a valid index of a five-element Python
      list, and a remark that has a name (otherwise `item['stars']` fails). */
  predicate Admissible(e: Entry) {
    match e
    case Rating(_, stars) => -4 <= stars <= 5
    case Remark(name, _) => name != ""
  }

  /** What the source demands of a category's entries: it raises on an entry
      that is not `Admissible` only when it gets there, that is when no earlier
      entry has already returned the sentinel. */
  predicate Aggregable(es: seq<Entry>) {
    forall k :: 0 <= k < |es| && !Admissible(es[k]) ==> exists j :: 0 <= j < k && Missing(es[j])
  }

  /** The entries before the last are aggregable too, and when none of them is
      `Missing` the last one is reached and must be `Admissible`. */
  lemma AggregablePrefix(es: seq<Entry>)
    requires Aggregable(es) && |es| > 0
    ensures Aggregable(es[..|es| - 1])
    ensures (forall j :: 0 <= j < |es| - 1 ==> !Missing(es[j])) ==> Admissible(es[|es| - 1])
  {
    var n := |es| - 1;
    forall k | 0 <= k < n && !Admissible(es[..n][k])
      ensures exists j :: 0 <= j < k && Missing(es[..n][j])
    {
      var j :| 0 <= j < k && Missing(es[j]);
      assert es[..n][j] == es[j];
    }
  }

  /** The bucket `stars - 1` of a Python list of five; a negative index counts
      from the end. */
  function Bucket(stars: int): (b: nat)
    requires -4 <= stars <= 5
    ensures b < 5
    ensures 1 <= stars ==> b == stars - 1
    ensures InBucket(stars, b)
  {
    if stars >= 1 then stars - 1 else stars + 4
  }

  /** Rating `stars` is counted in bucket `b` by `Bucket`. */
  predicate InBucket(stars: int, b: nat) {
    if stars >= 1 then b == stars - 1 else b == stars + 4
  }

  function EntryNames(es: seq<Entry>): (names: seq<string>)
    ensures |names| == |es|
    ensures forall k :: 0 <= k < |es| ==> names[k] == es[k].subcategory
  {
    seq(|es|, k requires 0 <= k < |es| => es[k].subcategory)
  }

  function SummaryNames(gs: seq<Summary>): (names: seq<string>)
    ensures |names| == |gs|
    ensures forall i :: 0 <= i < |gs| ==> names[i] == gs[i].subcategory
  {
    seq(|gs|, i requires 0 <= i < |gs| => gs[i].subcategory)
  }

  /** How many ratings of `es` are named `name` and fall in bucket `b`. */
  function Tally(es: seq<Entry>, name: string, b: nat): nat
    decreases |es|
  {
    if |es| == 0 then 0
    else
      var e := es[|es| - 1];
      Tally(es[..|es| - 1], name, b)
        + (if e.Rating? && e.subcategory == name && InBucket(e.stars, b) then 1 else 0)
  }

  function Increment(h: Histogram, b: nat): (h': Histogram)
    requires b < 5
    ensures forall b' :: 0 <= b' < 5 ==> h'[b'] == h[b'] + (if b' == b then 1 else 0)
  {
    h[b := h[b] + 1]
  }

  /** `aggregated_data[name][b] += 1` on the insertion-ordered default dictionary. */
  function Bump(gs: seq<Summary>, name: string, b: nat): (r: seq<Summary>)
    requires b < 5
    requires Distinct(SummaryNames(gs))
    ensures name in SummaryNames(gs) ==> SummaryNames(r) == SummaryNames(gs)
    ensures name !in SummaryNames(gs) ==> SummaryNames(r) == SummaryNames(gs) + [name]
    ensures forall i :: 0 <= i < |gs| ==>
      r[i].stars == if gs[i].subcategory == name then Increment(gs[i].stars, b) else gs[i].stars
    ensures name !in SummaryNames(gs) ==> r[|gs|].stars == Increment(Empty, b)
  {
    var k := FirstIndex(SummaryNames(gs), name);
    if k < |gs| then
      NameUnique(gs, k);
      var r := gs[k := Summary(name, Increment(gs[k].stars, b))];
      assert SummaryNames(r) == SummaryNames(gs);
      r
    else
      var r := gs + [Summary(name, Increment(Empty, b))];
      assert SummaryNames(r) == SummaryNames(gs) + [name];
      r
  }

  /** With distinct names, name `k` appears nowhere else. */
  lemma NameUnique(gs: seq<Summary>, k: nat)
    requires Distinct(SummaryNames(gs)) && k < |gs|
    ensures forall i :: 0 <= i < |gs| && i != k ==> gs[i].subcategory != gs[k].subcategory
  {
    forall i | 0 <= i < |gs| && i != k ensures gs[i].subcategory != gs[k].subcategory {
      if i < k {
        assert SummaryNames(gs)[i] != SummaryNames(gs)[k];
      } else {
        assert SummaryNames(gs)[k] != SummaryNames(gs)[i];
      }
    }
  }

  /** The meaning of a non-sentinel aggregate of `es`: one summary per distinct
      name in first-seen order, bucket `b` of a name counting its ratings in
      bucket `b`. */
  ghost predicate Summarises(gs: seq<Summary>, es: seq<Entry>) {
    && FirstSeenOrder(SummaryNames(gs), EntryNames(es))
    && forall i, b :: 0 <= i < |gs| && 0 <= b < 5 ==> gs[i].stars[b] == Tally(es, gs[i].subcategory, b)
  }

  lemma AggregateStep(es: seq<Entry>, gs: seq<Summary>)
    requires |es| > 0
    requires es[|es| - 1].Rating?
    requires Admissible(es[|es| - 1])
    requires Summarises(gs, es[..|es| - 1])
    ensures Summarises(Bump(gs, es[|es| - 1].subcategory, Bucket(es[|es| - 1].stars)), es)
  {
    var n := |es| - 1;
    var prefix, e := es[..n], es[n];
    var name, b := e.subcategory, Bucket(e.stars);
    assert EntryNames(es) == EntryNames(prefix) + [name];
    FirstSeenOrderAppend(SummaryNames(gs), EntryNames(prefix), name);
    var r := Bump(gs, name, b);
    forall i, b' | 0 <= i < |r| && 0 <= b' < 5
      ensures r[i].stars[b'] == Tally(es, r[i].subcategory, b')
    {
      StepCount(es, gs, name, b, r, i, b');
    }
  }

  /** One histogram bucket after filing the last rating of `es`, whose name
      is `name` and whose bucket is `b`, into the summaries `gs` of the rest. */
  lemma StepCount(es: seq<Entry>, gs: seq<Summary>, name: string, b: nat, r: seq<Summary>, i: nat, b': nat)
    requires |es| > 0 && b < 5 && b' < 5
    requires es[|es| - 1].Rating? && Admissible(es[|es| - 1])
    requires name == es[|es| - 1].subcategory && b == Bucket(es[|es| - 1].stars)
    requires Summarises(gs, es[..|es| - 1])
    requires r == Bump(gs, name, b) && i < |r|
    ensures r[i].stars[b'] == Tally(es, r[i].subcategory, b')
  {
    var n := |es| - 1;
    var prefix, e := es[..n], es[n];
    BumpEntry(gs, name, b, i);
    BucketExact(e.stars, b');
    var hit := if r[i].subcategory == name && b == b' then 1 else 0;
    TallySnoc(es, r[i].subcategory, b');
    assert (e.subcategory == r[i].subcategory && InBucket(e.stars, b')) == (r[i].subcategory == name && b == b');
    assert Tally(es, r[i].subcategory, b') == Tally(prefix, r[i].subcategory, b') + hit;
    if i < |gs| {
      var before := gs[i].stars[b'];
      assert before == Tally(prefix, gs[i].subcategory, b');
      if gs[i].subcategory == name {
        assert r[i] == Summary(name, Increment(gs[i].stars, b));
        assert r[i].stars[b'] == before + hit;
      } else {
        assert r[i] == gs[i];
      }
    } else {
      NotYetNamed(gs, prefix, name);
      TallyAbsent(prefix, name, b');
      assert r[i] == Summary(name, Increment(Empty, b));
      FirstVote(b, b');
    }
  }

  /** A name's first rating leaves every other bucket empty. */
  lemma FirstVote(b: nat, b': nat)
    requires b < 5 && b' < 5
    ensures Increment(Empty, b)[b'] == if b' == b then 1 else 0
  {
  }

  lemma TallySnoc(es: seq<Entry>, name: string, b: nat)
    requires |es| > 0
    ensures var e := es[|es| - 1];
      Tally(es, name, b) == Tally(es[..|es| - 1], name, b)
        + (if e.Rating? && e.subcategory == name && InBucket(e.stars, b) then 1 else 0)
  {
  }

  /** `Bucket` puts a rating in exactly one bucket. */
  lemma BucketExact(stars: int, b': nat)
    requires -4 <= stars <= 5
    ensures InBucket(stars, b') <==> b' == Bucket(stars)
  {
  }

  /** A name that is not yet a summary names no entry so far. */
  lemma NotYetNamed(gs: seq<Summary>, es: seq<Entry>, name: string)
    requires FirstSeenOrder(SummaryNames(gs), EntryNames(es))
    requires name !in SummaryNames(gs)
    ensures name !in EntryNames(es)
  {
  }

  /** Summary `i` after a bump: the bumped name's histogram gains one vote in
      bucket `b`, any other summary is unchanged, and a new name comes last. */
  lemma BumpEntry(gs: seq<Summary>, name: string, b: nat, i: nat)
    requires b < 5 && Distinct(SummaryNames(gs))
    requires i < |Bump(gs, name, b)|
    ensures var r := Bump(gs, name, b);
      && (i < |gs| && gs[i].subcategory == name ==> r[i] == Summary(name, Increment(gs[i].stars, b)))
      && (i < |gs| && gs[i].subcategory != name ==> r[i] == gs[i])
      && (i >= |gs| ==> i == |gs| && name !in SummaryNames(gs) && r[i] == Summary(name, Increment(Empty, b)))
  {
    var k := FirstIndex(SummaryNames(gs), name);
    if k < |gs| {
      NameUnique(gs, k);
    }
  }

  lemma {:induction false} TallyAbsent(es: seq<Entry>, name: string, b: nat)
    requires name !in EntryNames(es)
    ensures Tally(es, name, b) == 0
    decreases |es|
  {
    if |es| > 0 {
      var n := |es| - 1;
      assert EntryNames(es) == EntryNames(es[..n]) + [es[n].subcategory];
      TallyAbsent(es[..n], name, b);
    }
  }

  lemma MissingPrefix(es: seq<Entry>, prefix: seq<Entry>)
    requires |es| > 0 && prefix == es[..|es| - 1]
    ensures (exists k :: 0 <= k < |es| && Missing(es[k]))
      <==> (exists k :: 0 <= k < |prefix| && Missing(prefix[k])) || Missing(es[|es| - 1])
  {
    var n := |es| - 1;
    if k :| 0 <= k < |es| && Missing(es[k]) {
      if k < n {
        assert prefix[k] == es[k];
      }
    }
  }

  /** `aggregate_subcategories`: the sentinel exactly when some entry is
      `Missing`, otherwise the summaries of `Summarises`. */
  function Aggregate(es: seq<Entry>): (a: Aggregated)
    requires Aggregable(es)
    ensures a.Sentinel? <==> exists k :: 0 <= k < |es| && Missing(es[k])
    ensures a.Groups? ==> Summarises(a.groups, es)
    decreases |es|
  {
    if |es| == 0 then Groups([])
    else
      var n := |es| - 1;
      assert forall k :: 0 <= k < n ==> es[..n][k] == es[k];
      var e := es[n];
      AggregablePrefix(es);
      match Aggregate(es[..n])
      case Sentinel =>
        MissingPrefix(es, es[..n]);
        Sentinel
      case Groups(gs) =>
        if Missing(e) then Sentinel
        else
          MissingPrefix(es, es[..n]);
          assert Admissible(e);
          AggregateStep(es, gs);
          Groups(Bump(gs, e.subcategory, Bucket(e.stars)))
  }

  /** Total number of ratings in a histogram. */
  function Total(h: Histogram): nat {
    h[0] + h[1] + h[2] + h[3] + h[4]
  }

  /** Total number of ratings over all summaries. */
  function Votes(gs: seq<Summary>): nat {
    if |gs| == 0 then 0 else Total(gs[0].stars) + Votes(gs[1..])
  }

  /** One increment adds one vote. */
  lemma BumpAddsVote(gs: seq<Summary>, name: string, b: nat)
    requires b < 5
    requires Distinct(SummaryNames(gs))
    ensures Votes(Bump(gs, name, b)) == Votes(gs) + 1
  {
    var k := FirstIndex(SummaryNames(gs), name);
    if k < |gs| {
      var h := gs[k].stars;
      VotesUpdate(gs, k, Summary(name, Increment(h, b)));
      assert Total(Increment(h, b)) == Total(h) + 1;
    } else {
      VotesAppend(gs, Summary(name, Increment(Empty, b)));
    }
  }

  lemma {:induction false} VotesUpdate(gs: seq<Summary>, k: nat, g: Summary)
    requires k < |gs|
    ensures Votes(gs[k := g]) + Total(gs[k].stars) == Votes(gs) + Total(g.stars)
    decreases |gs|
  {
    if k > 0 {
      assert gs[k := g][1..] == gs[1..][k - 1 := g];
      VotesUpdate(gs[1..], k - 1, g);
    } else {
      assert gs[0 := g][1..] == gs[1..];
    }
  }

  lemma {:induction false} VotesAppend(gs: seq<Summary>, g: Summary)
    ensures Votes(gs + [g]) == Votes(gs) + Total(g.stars)
    decreases |gs|
  {
    if |gs| == 0 {
      assert ([] + [g])[1..] == [];
    } else {
      assert (gs + [g])[1..] == gs[1..] + [g];
      VotesAppend(gs[1..], g);
    }
  }

  /** Every entry of a category that does not degrade is counted exactly once:
      the histograms hold as many ratings as there are entries. */
  lemma {:induction false} VotesCountEntries(es: seq<Entry>)
    requires Aggregable(es)
    requires Aggregate(es).Groups?
    ensures Votes(Aggregate(es).groups) == |es|
    decreases |es|
  {
    if |es| > 0 {
      var n := |es| - 1;
      var prefix := es[..n];
      GroupsSnoc(es);
      VotesCountEntries(prefix);
      BumpAddsVote(Aggregate(prefix).groups, es[n].subcategory, Bucket(es[n].stars));
    }
  }

  /** A category that does not degrade grows by bumping its last rating into
      the summaries of the others. */
  lemma {:induction false} GroupsSnoc(es: seq<Entry>)
    requires Aggregable(es) && |es| > 0
    requires Aggregate(es).Groups?
    ensures Aggregable(es[..|es| - 1]) && Aggregate(es[..|es| - 1]).Groups?
    ensures es[|es| - 1].Rating? && Admissible(es[|es| - 1])
    ensures Distinct(SummaryNames(Aggregate(es[..|es| - 1]).groups))
    ensures Aggregate(es).groups
      == Bump(Aggregate(es[..|es| - 1]).groups, es[|es| - 1].subcategory, Bucket(es[|es| - 1].stars))
  {
    var n := |es| - 1;
    var prefix := es[..n];
    AggregablePrefix(es);
    assert forall k :: 0 <= k < n ==> prefix[k] == es[k];
    MissingPrefix(es, prefix);
  }

  /** A category with entries always has something to show. */
  lemma SubcategoriesNonEmpty(es: seq<Entry>)
    requires Aggregable(es)
    requires |es| > 0
    ensures |Subcategories(Aggregate(es))| > 0
  {
    var a := Aggregate(es);
    if a.Groups? {
      assert EntryNames(es)[0] == es[0].subcategory;
      assert es[0].subcategory in SummaryNames(a.groups);
    }
  }

  /** The feedback category of a parsed survey with at least one response
      holds only named remarks, none of them a rating, so it always
      aggregates to the sentinel. */
  lemma FeedbackIsSentinel(header: seq<string>, rows: seq<seq<string>>, i: nat)
    requires ParseSurvey(header, rows).Ok?
    requires |rows| > 0
    requires i < |ParseSurvey(header, rows).value|
    requires ParseSurvey(header, rows).value[i].category == Feedback
    ensures var es := ParseSurvey(header, rows).value[i].entries;
      && (forall k :: 0 <= k < |es| ==> Admissible(es[k]))
      && Aggregable(es)
      && Aggregate(es) == Sentinel
  {
    var es := ParseSurvey(header, rows).value[i].entries;
    FeedbackEntriesNamed(header, rows, i);
    NodeNonEmpty(header, rows, i);
    assert Missing(es[0]);
  }

  /** Every entry of the feedback node is a remark with a non-empty name. */
  lemma FeedbackEntriesNamed(header: seq<string>, rows: seq<seq<string>>, i: nat)
    requires ParseSurvey(header, rows).Ok?
    requires i < |ParseSurvey(header, rows).value|
    requires ParseSurvey(header, rows).value[i].category == Feedback
    ensures var es := ParseSurvey(header, rows).value[i].entries;
      forall k :: 0 <= k < |es| ==> es[k].Remark? && es[k].subcategory != ""
  {
    var m := CategorizeColumns(header);
    var es := ParseSurvey(header, rows).value[i].entries;
    forall k | 0 <= k < |es| ensures es[k].Remark? && es[k].subcategory != "" {
      NodeEntryColumn(m, rows, i, k);
      var j, cell :| 0 <= j < |m[i].columns| && Some(es[k]) == ReadCell(Feedback, m[i].columns[j], cell);
      ClassifiedColumnsNamed(header, i, j);
    }
  }

  /** With at least one response every node of the tree holds entries. */
  lemma NodeNonEmpty(header: seq<string>, rows: seq<seq<string>>, i: nat)
    requires ParseSurvey(header, rows).Ok?
    requires |rows| > 0
    requires i < |ParseSurvey(header, rows).value|
    ensures |ParseSurvey(header, rows).value[i].entries| > 0
  {
    var m := CategorizeColumns(header);
    GroupsNonEmpty(HeaderSlots(Fields(header)));
    TreeShape(m, rows);
    ProductPositive(|rows|, |m[i].columns|);
  }

  lemma ProductPositive(a: nat, b: nat)
    requires a > 0 && b > 0
    ensures a * b > 0
  {
  }

  /** An entry the source cannot index is harmless once an earlier entry has
      returned the sentinel: a rating of 0 under a name followed by a rating
      of 9 degrades the category instead of raising. */
  lemma SentinelBeforeOutOfRange()
    ensures Aggregable([Rating("q", 0), Rating("r", 9)])
    ensures Aggregate([Rating("q", 0), Rating("r", 9)]) == Sentinel
  {
    assert Missing([Rating("q", 0), Rating("r", 9)][0]);
  }
}

=== FILE: category_map.dfy ===
/** The insertion-ordered category map built by `categorize_columns` in main.py
    (a `defaultdict(list)` filled column by column), and the order in which the
    response parser later walks it. */
module CategoryMap {
  import opened Seqs
  import opened Columns

  /** One entry of the map: a category and its columns in header order. */
  datatype Group = Group(category: Category, columns: seq<string>)

  function Keys(m: seq<Group>): (keys: seq<Category>)
    ensures |keys| == |m|
    ensures forall i :: 0 <= i < |m| ==> keys[i] == m[i].category
  {
    seq(|m|, i requires 0 <= i < |m| => m[i].category)
  }

  function SlotCategories(s: seq<Slot>): (cats: seq<Category>)
    ensures |cats| == |s|
    ensures forall k :: 0 <= k < |s| ==> cats[k] == s[k].category
  {
    seq(|s|, k requires 0 <= k < |s| => s[k].category)
  }

  lemma SlotCategoriesSnoc(s: seq<Slot>)
    requires |s| > 0
    ensures SlotCategories(s) == SlotCategories(s[..|s| - 1]) + [s[|s| - 1].category]
  {
  }

  /** The columns among `s` whose category is `c`, in their original order. */
  function ColumnsOf(s: seq<Slot>, c: Category): seq<string>
    decreases |s|
  {
    if |s| == 0 then []
    else ColumnsOf(s[..|s| - 1], c) + (if s[|s| - 1].category == c then [s[|s| - 1].column] else [])
  }

  lemma {:induction false} ColumnsOfAbsent(s: seq<Slot>, c: Category)
    requires c !in SlotCategories(s)
    ensures ColumnsOf(s, c) == []
    decreases |s|
  {
    if |s| > 0 {
      SlotCategoriesSnoc(s);
      ColumnsOfAbsent(s[..|s| - 1], c);
    }
  }

  /** Appends `column` to the list of `c`, creating that list at the end of the
      map when `c` is not yet a key. */
  function Insert(m: seq<Group>, c: Category, column: string): (r: seq<Group>)
    requires Distinct(Keys(m))
    ensures c in Keys(m) ==> Keys(r) == Keys(m)
    ensures c !in Keys(m) ==> Keys(r) == Keys(m) + [c]
    ensures forall i :: 0 <= i < |m| ==>
      r[i].columns == if m[i].category == c then m[i].columns + [column] else m[i].columns
    ensures c !in Keys(m) ==> r[|m|].columns == [column]
  {
    var k := FirstIndex(Keys(m), c);
    if k < |m| then
      KeyUnique(m, k);
      var r := m[k := Group(c, m[k].columns + [column])];
      assert Keys(r) == Keys(m);
      r
    else
      var r := m + [Group(c, [column])];
      assert Keys(r) == Keys(m) + [c];
      r
  }

  /** With distinct keys, key `k` appears nowhere else. */
  lemma KeyUnique(m: seq<Group>, k: nat)
    requires Distinct(Keys(m)) && k < |m|
    ensures forall i :: 0 <= i < |m| && i != k ==> m[i].category != m[k].category
  {
    forall i | 0 <= i < |m| && i != k ensures m[i].category != m[k].category {
      if i < k {
        assert Keys(m)[i] != Keys(m)[k];
      } else {
        assert Keys(m)[k] != Keys(m)[i];
      }
    }
  }

  /** One step of the scan: filing the last column after the others keeps the
      first-seen key order and each key's list equal to its filtered columns. */
  lemma FileStep(s: seq<Slot>, m: seq<Group>)
    requires |s| > 0
    requires FirstSeenOrder(Keys(m), SlotCategories(s[..|s| - 1]))
    requires forall i :: 0 <= i < |m| ==> m[i].columns == ColumnsOf(s[..|s| - 1], m[i].category)
    ensures var r := Insert(m, s[|s| - 1].category, s[|s| - 1].column);
      && FirstSeenOrder(Keys(r), SlotCategories(s))
      && forall i :: 0 <= i < |r| ==> r[i].columns == ColumnsOf(s, r[i].category)
  {
    var prefix := s[..|s| - 1];
    var c := s[|s| - 1].category;
    var r := Insert(m, c, s[|s| - 1].column);
    assert FirstSeenOrder(Keys(r), SlotCategories(s)) by {
      SlotCategoriesSnoc(s);
      FirstSeenOrderAppend(Keys(m), SlotCategories(prefix), c);
    }
    assert c !in Keys(m) ==> c !in SlotCategories(prefix) by {
      if c in SlotCategories(prefix) {
        var k :| 0 <= k < |prefix| && SlotCategories(prefix)[k] == c;
        assert SlotCategories(prefix)[k] in Keys(m);
      }
    }
    forall i | 0 <= i < |r|
      ensures r[i].columns == ColumnsOf(s, r[i].category)
    {
      FileColumns(s, m, i);
    }
  }

  /** Entry `i` of the map after filing the last column lists exactly the
      columns of its key, given that the map before did so for the others. */
  lemma FileColumns(s: seq<Slot>, m: seq<Group>, i: nat)
    requires |s| > 0 && Distinct(Keys(m))
    requires forall i :: 0 <= i < |m| ==> m[i].columns == ColumnsOf(s[..|s| - 1], m[i].category)
    requires s[|s| - 1].category !in Keys(m) ==> s[|s| - 1].category !in SlotCategories(s[..|s| - 1])
    requires i < |Insert(m, s[|s| - 1].category, s[|s| - 1].column)|
    ensures var r := Insert(m, s[|s| - 1].category, s[|s| - 1].column);
      r[i].columns == ColumnsOf(s, r[i].category)
  {
    var prefix, c, x := s[..|s| - 1], s[|s| - 1].category, s[|s| - 1].column;
    var r := Insert(m, c, x);
    if i < |m| {
      assert r[i].category == Keys(r)[i] == Keys(m)[i] == m[i].category;
    } else {
      assert r[i].category == Keys(r)[i] == c;
      ColumnsOfAbsent(prefix, c);
    }
  }

  /** The scan of `categorize_columns`: each column is appended to the list of
      its category. The keys are the categories in first-seen order, and each
      key's list is exactly the columns of that category, in order. */
  function File(s: seq<Slot>): (m: seq<Group>)
    ensures FirstSeenOrder(Keys(m), SlotCategories(s))
    ensures forall i :: 0 <= i < |m| ==> m[i].columns == ColumnsOf(s, m[i].category)
    decreases |s|
  {
    if |s| == 0 then []
    else
      var prev := File(s[..|s| - 1]);
      FileStep(s, prev);
      Insert(prev, s[|s| - 1].category, s[|s| - 1].column)
  }

  /** The last column is filed into the map of the columns before it. */
  lemma FileSnoc(s: seq<Slot>)
    requires |s| > 0
    ensures Distinct(Keys(File(s[..|s| - 1])))
    ensures File(s) == Insert(File(s[..|s| - 1]), s[|s| - 1].category, s[|s| - 1].column)
  {
  }

  /** `categorize_columns(header)`. */
  function CategorizeColumns(header: seq<string>): seq<Group> {
    File(HeaderSlots(Fields(header)))
  }

  /** Every column the header files under a category is a column of the header
      classified into that category, so a column filed under anything but
      `Other` has a non-empty name. */
  lemma ClassifiedColumnsNamed(header: seq<string>, i: nat, j: nat)
    requires i < |CategorizeColumns(header)|
    requires j < |CategorizeColumns(header)[i].columns|
    ensures var g := CategorizeColumns(header)[i];
      && Classify(g.columns[j]) == g.category
      && (g.category != Other ==> |g.columns[j]| > 0)
  {
    var s := HeaderSlots(Fields(header));
    var g := File(s)[i];
    ColumnsOfMembers(s, g.category);
    var col := g.columns[j];
    assert Slot(g.category, col) in s;
    var k :| 0 <= k < |s| && s[k] == Slot(g.category, col);
    if g.category != Other {
      ClassifiedNonEmpty(col);
    }
  }

  /** Every key of the map owns at least one column. */
  lemma {:induction false} GroupsNonEmpty(s: seq<Slot>)
    ensures forall i :: 0 <= i < |File(s)| ==> |File(s)[i].columns| > 0
  {
    var m := File(s);
    forall i | 0 <= i < |m| ensures |m[i].columns| > 0 {
      assert Keys(m)[i] in SlotCategories(s);
      var k :| 0 <= k < |s| && SlotCategories(s)[k] == m[i].category;
      ColumnsOfPresent(s, m[i].category, k);
    }
  }

  lemma {:induction false} ColumnsOfPresent(s: seq<Slot>, c: Category, k: nat)
    requires k < |s| && s[k].category == c
    ensures ColumnsOf(s, c) != []
    decreases |s|
  {
    if k < |s| - 1 {
      ColumnsOfPresent(s[..|s| - 1], c, k);
    }
  }

  /** Every column of the map carries the map key it is filed under. */
  lemma {:induction false} ColumnsOfMembers(s: seq<Slot>, c: Category)
    ensures forall j :: 0 <= j < |ColumnsOf(s, c)| ==> Slot(c, ColumnsOf(s, c)[j]) in s
    decreases |s|
  {
    if |s| > 0 {
      var prefix := s[..|s| - 1];
      ColumnsOfMembers(prefix, c);
      forall j | 0 <= j < |ColumnsOf(s, c)| ensures Slot(c, ColumnsOf(s, c)[j]) in s {
        if j < |ColumnsOf(prefix, c)| {
          assert Slot(c, ColumnsOf(prefix, c)[j]) in prefix;
        } else {
          assert ColumnsOf(s, c)[j] == s[|s| - 1].column;
        }
      }
    }
  }

  /** The slots of one key's columns, in list order. */
  function Block(g: Group): (b: seq<Slot>)
    ensures |b| == |g.columns|
    ensures forall j :: 0 <= j < |g.columns| ==> b[j] == Slot(g.category, g.columns[j])
  {
    seq(|g.columns|, j requires 0 <= j < |g.columns| => Slot(g.category, g.columns[j]))
  }

  /** The columns in the order `for category, subcategories in category_map.items()`
      then `for subcat in subcategories` visits them. */
  function Grouped(m: seq<Group>): seq<Slot> {
    if |m| == 0 then [] else Block(m[0]) + Grouped(m[1..])
  }

  /** Where the columns of key `i` start in the grouped order: they occupy the
      block that starts there. */
  function Offset(m: seq<Group>, i: nat): (start: nat)
    requires i < |m|
    ensures start + |m[i].columns| <= |Grouped(m)|
  {
    if i == 0 then 0
    else
      assert m[1..][i - 1] == m[i];
      |m[0].columns| + Offset(m[1..], i - 1)
  }

  /** Column `j` of key `i` sits at `Offset(m, i) + j` of the grouped order. */
  lemma {:induction false} OffsetSlot(m: seq<Group>, i: nat, j: nat)
    requires i < |m| && j < |m[i].columns|
    ensures Offset(m, i) + j < |Grouped(m)|
    ensures Grouped(m)[Offset(m, i) + j] == Slot(m[i].category, m[i].columns[j])
    decreases i
  {
    if i > 0 {
      var tail := m[1..];
      assert tail[i - 1] == m[i];
      OffsetSlot(tail, i - 1, j);
      var o := Offset(tail, i - 1);
      assert Offset(m, i) + j == |Block(m[0])| + (o + j);
    }
  }

  lemma BlockSnoc(c: Category, cols: seq<string>, x: string)
    ensures Block(Group(c, cols + [x])) == Block(Group(c, cols)) + [Slot(c, x)]
  {
  }

  /** The grouped order around key `k`. */
  lemma {:induction false} GroupedSplit(m: seq<Group>, k: nat)
    requires k < |m|
    ensures Grouped(m) == Grouped(m[..k]) + Block(m[k]) + Grouped(m[k + 1..])
    decreases k
  {
    if k == 0 {
      assert m[..0] == [];
    } else {
      var tail := m[1..];
      var head, before, after := Block(m[0]), Grouped(tail[..k - 1]), Grouped(m[k + 1..]);
      assert Grouped(tail) == before + Block(m[k]) + after by {
        GroupedSplit(tail, k - 1);
        assert tail[k - 1] == m[k] && tail[k..] == m[k + 1..];
      }
      assert Grouped(m[..k]) == head + before by {
        assert tail[..k - 1] == m[..k][1..];
      }
      Regroup(head, before, Block(m[k]), after);
    }
  }

  lemma Regroup(a: seq<Slot>, b: seq<Slot>, c: seq<Slot>, d: seq<Slot>)
    ensures a + (b + c + d) == (a + b) + c + d
  {
  }

  lemma SnocMiddle(a: seq<Slot>, b: seq<Slot>, d: seq<Slot>, x: Slot)
    requires d == []
    ensures a + (b + [x]) + d == (a + b + d) + [x]
  {
  }

  /** Where `Insert` puts the column: the block of an existing key `k` grows
      by it, or a new one-column block is added last. */
  lemma InsertSplit(m: seq<Group>, c: Category, x: string) returns (k: nat)
    requires Distinct(Keys(m))
    ensures k == FirstIndex(Keys(m), c)
    ensures k < |m| ==> Grouped(m) == Grouped(m[..k]) + Block(m[k]) + Grouped(m[k + 1..])
    ensures k < |m| ==>
      Grouped(Insert(m, c, x)) == Grouped(m[..k]) + (Block(m[k]) + [Slot(c, x)]) + Grouped(m[k + 1..])
    ensures k == |m| ==> Grouped(Insert(m, c, x)) == Grouped(m) + [Slot(c, x)]
  {
    k := FirstIndex(Keys(m), c);
    var r := Insert(m, c, x);
    if k < |m| {
      GroupedSplit(m, k);
      GroupedSplit(r, k);
      assert r[..k] == m[..k] && r[k + 1..] == m[k + 1..];
      assert m[k] == Group(c, m[k].columns);
      BlockSnoc(c, m[k].columns, x);
    } else {
      GroupedSplit(r, k);
      assert r[..k] == m && r[k + 1..] == [];
    }
  }

  /** Filing a column under a new key or under the newest key adds it at the end
      of the grouped order. */
  lemma InsertAtEnd(m: seq<Group>, c: Category, x: string)
    requires Distinct(Keys(m))
    requires c in Keys(m) ==> NewestKey(m, c)
    ensures Grouped(Insert(m, c, x)) == Grouped(m) + [Slot(c, x)]
  {
    var k := InsertSplit(m, c, x);
    if k < |m| {
      assert k == |m| - 1 by {
        assert Keys(m)[|m| - 1] == c;
      }
      assert Grouped(m[k + 1..]) == [] by {
        assert m[k + 1..] == [];
      }
      SnocMiddle(Grouped(m[..k]), Block(m[k]), Grouped(m[k + 1..]), Slot(c, x));
    }
  }

  /** Filing a column anywhere adds exactly that column to the grouped order. */
  lemma InsertAddsSlot(m: seq<Group>, c: Category, x: string)
    requires Distinct(Keys(m))
    ensures multiset(Grouped(Insert(m, c, x))) == multiset(Grouped(m)) + multiset{Slot(c, x)}
  {
    var k := InsertSplit(m, c, x);
  }

  /** Every column is handed to the parser exactly once: the grouped order is a
      permutation of the header order. */
  lemma {:induction false} GroupedIsPermutation(s: seq<Slot>)
    ensures multiset(Grouped(File(s))) == multiset(s)
    decreases |s|
  {
    if |s| > 0 {
      var n := |s| - 1;
      var prefix, last := s[..n], s[n];
      GroupedIsPermutation(prefix);
      var prev := File(prefix);
      FileSnoc(s);
      InsertAddsSlot(prev, last.category, last.column);
      MultisetSnoc(s);
    }
  }

  lemma MultisetSnoc<T>(s: seq<T>)
    requires |s| > 0
    ensures multiset(s) == multiset(s[..|s| - 1]) + multiset{s[|s| - 1]}
  {
    assert s == s[..|s| - 1] + [s[|s| - 1]];
  }

  /** The categories of `cats` come in unbroken runs: a category never returns
      once another one has started. */
  ghost predicate Contiguous(cats: seq<Category>) {
    forall i, j, k :: 0 <= i < j < k < |cats| && cats[i] == cats[k] ==> cats[j] == cats[i]
  }

  lemma ContiguousCons(a: seq<Category>, c: Category, b: seq<Category>)
    requires forall k :: 0 <= k < |a| ==> a[k] == c
    requires c !in b
    requires Contiguous(b)
    ensures Contiguous(a + b)
  {
    var s := a + b;
    forall i, j, k | 0 <= i < j < k < |s| && s[i] == s[k]
      ensures s[j] == s[i]
    {
      if i >= |a| {
        assert s[i] == b[i - |a|] && s[j] == b[j - |a|] && s[k] == b[k - |a|];
      } else if k >= |a| {
        assert s[k] == b[k - |a|];
      }
    }
  }

  /** The grouped order of any map with distinct keys is contiguous by category. */
  lemma {:induction false} GroupedContiguous(m: seq<Group>)
    requires Distinct(Keys(m))
    ensures Contiguous(SlotCategories(Grouped(m)))
    ensures forall k :: 0 <= k < |Grouped(m)| ==> Grouped(m)[k].category in Keys(m)
    decreases |m|
  {
    if |m| > 0 {
      var tail := m[1..];
      TailKeys(m);
      GroupedContiguous(tail);
      var c := m[0].category;
      var head := SlotCategories(Block(m[0]));
      var rest := SlotCategories(Grouped(tail));
      assert SlotCategories(Grouped(m)) == head + rest;
      forall k | 0 <= k < |rest| ensures rest[k] != c {
        assert rest[k] == Grouped(tail)[k].category;
      }
      ContiguousCons(head, c, rest);
      forall k | 0 <= k < |Grouped(m)| ensures Grouped(m)[k].category in Keys(m) {
        if k >= |Block(m[0])| {
          assert Grouped(m)[k] == Grouped(tail)[k - |Block(m[0])|];
        } else {
          assert Keys(m)[0] == c;
        }
      }
    }
  }

  /** The keys after the first are the rest of the keys, and the first is not
      among them. */
  lemma TailKeys(m: seq<Group>)
    requires |m| > 0 && Distinct(Keys(m))
    ensures Keys(m[1..]) == Keys(m)[1..]
    ensures Distinct(Keys(m[1..]))
    ensures m[0].category !in Keys(m[1..])
    ensures forall c :: c in Keys(m[1..]) ==> c in Keys(m)
  {
    assert Keys(m[1..]) == Keys(m)[1..];
    forall t | 0 <= t < |m| - 1 ensures Keys(m[1..])[t] != m[0].category {
      assert Keys(m)[0] != Keys(m)[t + 1];
    }
  }

  /** In a contiguous sequence, a category seen before the last position is
      also the category just before it. */
  lemma ContiguousReturn(cats: seq<Category>)
    requires Contiguous(cats)
    requires |cats| > 0 && cats[|cats| - 1] in cats[..|cats| - 1]
    ensures |cats| > 1 && cats[|cats| - 2] == cats[|cats| - 1]
  {
    var n := |cats| - 1;
    var i :| 0 <= i < n && cats[..n][i] == cats[n];
    assert cats[i] == cats[n];
    if i < n - 1 {
      assert cats[n - 1] == cats[i];
    }
  }

  lemma ContiguousSnoc(s: seq<Slot>)
    requires |s| > 0 && Contiguous(SlotCategories(s))
    ensures Contiguous(SlotCategories(s[..|s| - 1]))
  {
    var n := |s| - 1;
    var cats, before := SlotCategories(s), SlotCategories(s[..n]);
    forall i, j, k | 0 <= i < j < k < |before| && before[i] == before[k]
      ensures before[j] == before[i]
    {
      assert before[i] == cats[i] && before[j] == cats[j] && before[k] == cats[k];
    }
  }

  /** Under contiguous categories, a last column whose category is already a
      key of the map so far continues the run of the column before it. */
  lemma ReturnsToLast(s: seq<Slot>, prev: seq<Group>)
    requires |s| > 0 && Contiguous(SlotCategories(s))
    requires FirstSeenOrder(Keys(prev), SlotCategories(s[..|s| - 1]))
    requires s[|s| - 1].category in Keys(prev)
    ensures |s| > 1 && s[|s| - 2].category == s[|s| - 1].category
  {
    var n := |s| - 1;
    var cats := SlotCategories(s);
    SlotCategoriesSnoc(s);
    assert cats[..n] == SlotCategories(s[..n]);
    ContiguousReturn(cats);
  }

  /** The newest key of `m` is `c`. */
  predicate NewestKey(m: seq<Group>, c: Category) {
    |m| > 0 && m[|m| - 1].category == c
  }

  /** Filing the next column of a run continues the grouped order. */
  lemma KeepsOrderStep(s: seq<Slot>, prev: seq<Group>) returns (r: seq<Group>)
    requires |s| > 0
    requires Distinct(Keys(prev))
    requires Grouped(prev) == s[..|s| - 1]
    requires s[|s| - 1].category in Keys(prev) ==> NewestKey(prev, s[|s| - 1].category)
    ensures r == Insert(prev, s[|s| - 1].category, s[|s| - 1].column)
    ensures Grouped(r) == s
    ensures NewestKey(r, s[|s| - 1].category)
  {
    var n := |s| - 1;
    var c, x := s[n].category, s[n].column;
    r := Insert(prev, c, x);
    InsertAtEnd(prev, c, x);
    assert s == s[..n] + [Slot(c, x)];
    InsertLastKey(prev, c, x);
  }

  /** Filing under a new key or under the newest key leaves that key newest. */
  lemma InsertLastKey(m: seq<Group>, c: Category, x: string)
    requires Distinct(Keys(m))
    requires c in Keys(m) ==> NewestKey(m, c)
    ensures NewestKey(Insert(m, c, x), c)
  {
    var r := Insert(m, c, x);
    var kr, km := Keys(r), Keys(m);
    assert |r| > 0 && kr[|r| - 1] == r[|r| - 1].category;
    if c in km {
      assert kr == km && km[|m| - 1] == m[|m| - 1].category;
    } else {
      assert kr == km + [c];
    }
  }

  /** One step of `ContiguousKeepsOrder`, stated on the map of the columns
      before the last one. */
  lemma ContiguousStep(s: seq<Slot>, prev: seq<Group>)
    requires |s| > 0 && Contiguous(SlotCategories(s))
    requires FirstSeenOrder(Keys(prev), SlotCategories(s[..|s| - 1]))
    requires Grouped(prev) == s[..|s| - 1]
    requires |s| > 1 ==> NewestKey(prev, s[|s| - 2].category)
    ensures Grouped(Insert(prev, s[|s| - 1].category, s[|s| - 1].column)) == s
    ensures NewestKey(Insert(prev, s[|s| - 1].category, s[|s| - 1].column), s[|s| - 1].category)
  {
    if s[|s| - 1].category in Keys(prev) {
      ReturnsToLast(s, prev);
    }
    var r := KeepsOrderStep(s, prev);
  }

  /** With contiguous categories the grouped order is the header order, and the
      newest key is the category of the last column. */
  lemma {:induction false} ContiguousKeepsOrder(s: seq<Slot>)
    requires Contiguous(SlotCategories(s))
    ensures Grouped(File(s)) == s
    ensures |s| > 0 ==> NewestKey(File(s), s[|s| - 1].category)
    decreases |s|
  {
    if |s| > 0 {
      var n := |s| - 1;
      ContiguousSnoc(s);
      ContiguousKeepsOrder(s[..n]);
      var prev := File(s[..n]);
      assert n > 0 ==> s[..n][n - 1] == s[n - 1];
      ContiguousStep(s, prev);
      FileSnoc(s);
    }
  }

  /** The parser visits the columns in header order exactly when every
      category's columns form one unbroken block of the header. */
  lemma GroupedOrderIsHeaderOrder(s: seq<Slot>)
    ensures Grouped(File(s)) == s <==> Contiguous(SlotCategories(s))
  {
    if Contiguous(SlotCategories(s)) {
      ContiguousKeepsOrder(s);
    }
    if Grouped(File(s)) == s {
      GroupedContiguous(File(s));
    }
  }
}

=== FILE: columns.dfy ===
/** Column categorisation (`simplify_text` and `categorize_columns` in main.py):
    every header column after the four metadata columns is put in exactly one
    topic category by keyword matching, and the categories form an
    insertion-ordered map from category to its columns. */
module Columns {
  import opened Text

  /** Number of leading metadata columns the pipeline ignores. */
  const MetadataColumns: nat := 4

  datatype Category = Coordination | Objectives | Feedback | Discussions | Accessibility | Other
  {
    /** The dictionary key the source uses for this category. */
    function Name(): string {
      match this
      case Coordination => "Coordination"
      case Objectives => "Objectives"
      case Feedback => "Feedback"
      case Discussions => "Discussions"
      case Accessibility => "Accessibility"
      case Other => "Other"
    }

    /** Position of this category's keyword set in the order the sets are tried. */
    function Rank(): nat {
      match this
      case Coordination => 0
      case Objectives => 1
      case Feedback => 2
      case Discussions => 3
      case Accessibility => 4
      case Other => 5
    }

    /** The keywords that select this category; `Other` is the fallback and has none. */
    function Keywords(): seq<string> {
      match this
      case Coordination => ["coordination", "gathered", "activity"]
      case Objectives => ["objectives", "goals"]
      case Feedback => ["feedback", "comment", "suggestion"]
      case Discussions => ["discussions", "participation", "inputs"]
      case Accessibility => ["accessibility", "convenience", "comfort"]
      case Other => []
    }
  }

  /** The keyword sets in the order they are tried; `Other` is what is left. */
  const Priority: seq<Category> := [Coordination, Objectives, Feedback, Discussions, Accessibility]

  lemma PriorityRanks()
    ensures forall j :: 0 <= j < |Priority| ==> Priority[j].Rank() == j && Priority[j] != Other
  {
  }

  /** Some keyword of category `c` occurs in `name`. */
  predicate Matches(name: string, c: Category) {
    exists i :: 0 <= i < |c.Keywords()| && Contains(name, c.Keywords()[i])
  }

  /** The first of the keyword sets `Priority[j..]` that matches `name`. */
  function FirstMatching(name: string, j: nat): (c: Category)
    requires j <= |Priority|
    ensures c != Other ==> Matches(name, c) && j <= c.Rank() < |Priority| && Priority[c.Rank()] == c
    ensures c == Other ==> forall k :: j <= k < |Priority| ==> !Matches(name, Priority[k])
    ensures c != Other ==> forall k :: j <= k < c.Rank() ==> !Matches(name, Priority[k])
    decreases |Priority| - j
  {
    PriorityRanks();
    if j == |Priority| then Other
    else if Matches(name, Priority[j]) then Priority[j]
    else FirstMatching(name, j + 1)
  }

  /** The category of one column: the first keyword set, in priority order, one
      of whose keywords occurs in the normalised name; `Other` when none does. */
  function Classify(column: string): (c: Category)
    ensures c != Other ==> Matches(Simplify(column), c)
    ensures c != Other ==> forall k :: 0 <= k < c.Rank() ==> !Matches(Simplify(column), Priority[k])
    ensures c == Other ==> forall k :: 0 <= k < |Priority| ==> !Matches(Simplify(column), Priority[k])
  {
    FirstMatching(Simplify(column), 0)
  }

  /** A column that falls in a named category has a non-empty name, since one of
      the category's keywords occurs in it. */
  lemma ClassifiedNonEmpty(column: string)
    requires Classify(column) != Other
    ensures |column| > 0
  {
    var name := Simplify(column);
    var c := Classify(column);
    var keywords := c.Keywords();
    var i :| 0 <= i < |keywords| && Contains(name, keywords[i]);
    KeywordNonEmpty(c, i);
    ContainsNonEmpty(name, keywords[i]);
  }

  lemma KeywordNonEmpty(c: Category, i: nat)
    requires i < |c.Keywords()|
    ensures |c.Keywords()[i]| > 0
  {
  }

  /** The categorised columns: `header[4:]`, empty when the header is shorter. */
  function Fields(header: seq<string>): (cols: seq<string>)
    ensures |header| >= MetadataColumns ==> |cols| == |header| - MetadataColumns
    ensures |header| < MetadataColumns ==> cols == []
    ensures forall k :: 0 <= k < |cols| ==> cols[k] == header[MetadataColumns + k]
  {
    if |header| <= MetadataColumns then [] else header[MetadataColumns..]
  }

  /** A categorised column together with its category. */
  datatype Slot = Slot(category: Category, column: string)

  /** The categorised columns in header order, each with its category. */
  function HeaderSlots(cols: seq<string>): (s: seq<Slot>)
    ensures |s| == |cols|
    ensures forall k :: 0 <= k < |cols| ==> s[k].column == cols[k] && s[k].category == Classify(cols[k])
  {
    seq(|cols|, k requires 0 <= k < |cols| => Slot(Classify(cols[k]), cols[k]))
  }
}

=== FILE: display.dfy ===
/** What the screen shows for the current subcategory: its name with any list
    numbering removed, its star counts and percentages, and its verdict. */
module Display {
  import opened Text
  import opened Columns
  import opened Aggregation
  import opened Scoring

  /** Length of the leading run of ASCII digits. */
  function DigitRun(s: string): (n: nat)
    ensures n <= |s|
    ensures forall k :: 0 <= k < n ==> IsDigit(s[k])
    ensures n < |s| ==> !IsDigit(s[n])
  {
    if |s| > 0 && IsDigit(s[0]) then 1 + DigitRun(s[1..]) else 0
  }

  /** A list number such as `"12. "`: one or more digits, a full stop, then
      any whitespace. */
  predicate Numbering(p: string) {
    exists d :: 0 < d < |p| && p[d] == '.'
      && (forall k :: 0 <= k < d ==> IsDigit(p[k]))
      && (forall k :: d < k < |p| ==> IsSpace(p[k]))
  }

  /** `re.sub(r'^\d+\.\s*', '', name)`: removes a list number at the very
      start, together with all whitespace after its full stop. */
  function StripNumbering(s: string): (r: string)
    ensures |r| <= |s| && r == s[|s| - |r|..]
    ensures |s| == 0 || !IsDigit(s[0]) ==> r == s
  {
    var d := DigitRun(s);
    if 0 < d < |s| && s[d] == '.' then StripLeading(s[d + 1..]) else s
  }

  /** What the removal takes off is a list number, and what is left does not
      start with whitespace, so the removed number is the longest one. */
  lemma StripNumberingRemovesNumber(s: string)
    ensures var r := StripNumbering(s);
      r != s ==> Numbering(s[..|s| - |r|]) && (|r| == 0 || !IsSpace(r[0]))
  {
    var r := StripNumbering(s);
    var d := DigitRun(s);
    if 0 < d < |s| && s[d] == '.' {
      var p := s[..|s| - |r|];
      assert p[d] == '.';
      assert Numbering(p);
    }
  }

  /** A name that starts with a list number always loses it. */
  lemma StripNumberingOfAnyNumber(s: string, k: nat)
    requires k <= |s| && Numbering(s[..k])
    ensures StripNumbering(s) != s
  {
    var p := s[..k];
    var e :| 0 < e < |p| && p[e] == '.'
      && (forall j :: 0 <= j < e ==> IsDigit(p[j]))
      && (forall j :: e < j < |p| ==> IsSpace(p[j]));
    assert DigitRun(s) == e by {
      assert s == s[..e] + s[e..];
      assert s[e..][0] == p[e];
      DigitRunOfDigits(s[..e], s[e..]);
    }
    assert s[e] == '.';
    assert |StripNumbering(s)| <= |s[e + 1..]|;
  }

  /** Numbering a name and removing the numbering again gives the name back,
      provided the name does not itself start with whitespace. */
  lemma StripNumberingOfNumbered(digits: string, gap: string, name: string)
    requires |digits| > 0 && forall k :: 0 <= k < |digits| ==> IsDigit(digits[k])
    requires forall k :: 0 <= k < |gap| ==> IsSpace(gap[k])
    requires |name| == 0 || !IsSpace(name[0])
    ensures StripNumbering(digits + "." + gap + name) == name
  {
    var tail := gap + name;
    var rest := ['.'] + tail;
    var s := digits + rest;
    assert s == digits + "." + gap + name;
    DigitRunOfDigits(digits, rest);
    assert s[|digits|] == '.';
    assert s[|digits| + 1..] == tail;
    StripLeadingOfGap(gap, name);
  }

  lemma {:induction false} DigitRunOfDigits(digits: string, rest: string)
    requires forall k :: 0 <= k < |digits| ==> IsDigit(digits[k])
    requires |rest| > 0 && !IsDigit(rest[0])
    ensures DigitRun(digits + rest) == |digits|
    decreases |digits|
  {
    if |digits| > 0 {
      assert (digits + rest)[1..] == digits[1..] + rest;
      DigitRunOfDigits(digits[1..], rest);
    }
  }

  lemma {:induction false} StripLeadingOfGap(gap: string, name: string)
    requires forall k :: 0 <= k < |gap| ==> IsSpace(gap[k])
    requires |name| == 0 || !IsSpace(name[0])
    ensures StripLeading(gap + name) == name
    decreases |gap|
  {
    if |gap| > 0 {
      assert (gap + name)[1..] == gap[1..] + name;
      StripLeadingOfGap(gap[1..], name);
    } else {
      assert gap + name == name;
    }
  }

  /** The removal is not idempotent: only the first of two list numbers goes. */
  lemma StripNumberingOnce()
    ensures StripNumbering("1. 2. Venue") == "2. Venue"
  {
    var name := "2. Venue";
    assert "1. 2. Venue" == "1" + "." + " " + name;
    StripNumberingOfNumbered("1", " ", name);
  }

  /** Everything shown for one subcategory. */
  datatype Screen = Screen(
    category: Category,
    subcategory: string,
    counts: Histogram,
    percentages: seq<real>,
    verdict: Verdict)
  {
    function Colour(): string {
      verdict.Colour()
    }
  }

  /** The screen for summary `s` of category `c`: the category, the name
      without its list number, the star counts, their percentages
      (`PercentagesProportional`, `PercentagesSumTo100`) and the verdict of
      their weighted average (`JudgeByCounts`), drawn in its colour. */
  function Present(c: Category, s: Summary): (screen: Screen)
    ensures screen.category == c && screen.counts == s.stars
    ensures screen.subcategory == StripNumbering(s.subcategory)
    ensures screen.percentages == Percentages(s.stars)
    ensures screen.verdict == Judge(s.stars) && screen.Colour() == Judge(s.stars).Colour()
  {
    Screen(c, StripNumbering(s.subcategory), s.stars, Percentages(s.stars), Judge(s.stars))
  }
}

=== FILE: navigation.dfy ===
/** The cursor over the aggregated survey (`next_subcategory` and
    `prev_subcategory` in main.py): a category index and a subcategory index
    into that category's aggregated list. The lists themselves are abstracted
    to their lengths. */
module Navigation {
  import opened Results

  datatype Position = Position(category: nat, sub: nat)

  const Start := Position(0, 0)

  /** `next_subcategory` with `subCount` summaries in the current category and
      `categoryCount` categories: the next summary, else the first summary of
      the next category, else nothing (the "No next category" case, which also
      skips the refresh). */
  function Next(p: Position, subCount: nat, categoryCount: nat): (q: Option<Position>)
    ensures q.Some? ==> q.value.category == p.category || q.value == Position(p.category + 1, 0)
    ensures q.None? <==> p.sub + 1 >= subCount && p.category + 1 >= categoryCount
  {
    if p.sub < subCount - 1 then Some(Position(p.category, p.sub + 1))
    else if p.category < categoryCount - 1 then Some(Position(p.category + 1, 0))
    else None
  }

  /** `prev_subcategory`: the previous summary, else the FIRST summary of the
      previous category, else stay (the "No previous category" case). */
  function Prev(p: Position): (q: Position)
    ensures q == p <==> p == Start
    ensures q.category == p.category || (p.category > 0 && q == Position(p.category - 1, 0))
  {
    if p.sub > 0 then Position(p.category, p.sub - 1)
    else if p.category > 0 then Position(p.category - 1, 0)
    else p
  }

  /** The cursor points at an existing summary; `counts[c]` is the length of
      category `c`'s aggregated list. */
  predicate Valid(p: Position, counts: seq<nat>) {
    p.category < |counts| && p.sub < counts[p.category]
  }

  /** Every category shows at least one summary (the sentinel counts as one). */
  predicate Populated(counts: seq<nat>) {
    forall c :: 0 <= c < |counts| ==> counts[c] > 0
  }

  /** `next_subcategory` on the survey whose category lengths are `counts`. */
  function Forward(p: Position, counts: seq<nat>): Option<Position>
    requires p.category < |counts|
  {
    Next(p, counts[p.category], |counts|)
  }

  /** Neither move ever leaves the survey. */
  lemma MovesStayValid(p: Position, counts: seq<nat>)
    requires Populated(counts) && Valid(p, counts)
    ensures Forward(p, counts).Some? ==> Valid(Forward(p, counts).value, counts)
    ensures Valid(Prev(p), counts)
  {
  }

  /** Number of summaries in all the categories of `counts`. */
  function Sum(counts: seq<nat>): nat
    decreases |counts|
  {
    if |counts| == 0 then 0 else Sum(counts[..|counts| - 1]) + counts[|counts| - 1]
  }

  /** The place of the cursor in the flattened list of all summaries. */
  function Index(p: Position, counts: seq<nat>): nat
    requires p.category < |counts|
  {
    Sum(counts[..p.category]) + p.sub
  }

  lemma SumStep(counts: seq<nat>, c: nat)
    requires c < |counts|
    ensures Sum(counts[..c + 1]) == Sum(counts[..c]) + counts[c]
  {
    assert counts[..c + 1][..c] == counts[..c];
  }

  lemma {:induction false} SumPrefix(counts: seq<nat>, c: nat)
    requires c <= |counts|
    ensures Sum(counts[..c]) <= Sum(counts)
    ensures Populated(counts) ==> Sum(counts[..c]) + (|counts| - c) <= Sum(counts)
    decreases |counts| - c
  {
    if c == |counts| {
      assert counts[..c] == counts;
    } else {
      SumStep(counts, c);
      SumPrefix(counts, c + 1);
    }
  }

  /** The flattened order: `next` moves one summary on, and there is no next
      exactly at the last summary of the survey. */
  lemma ForwardIsSuccessor(p: Position, counts: seq<nat>)
    requires Populated(counts) && Valid(p, counts)
    ensures Index(p, counts) < Sum(counts)
    ensures Forward(p, counts).None? <==> Index(p, counts) == Sum(counts) - 1
    ensures Forward(p, counts).Some? ==> Index(Forward(p, counts).value, counts) == Index(p, counts) + 1
  {
    var c := p.category;
    SumStep(counts, c);
    SumPrefix(counts, c + 1);
    var q := Forward(p, counts);
    if q.Some? && q.value.category == c + 1 {
      assert Index(q.value, counts) == Sum(counts[..c + 1]);
    }
  }

  /** `prev` moves one summary back inside a category, but from the first
      summary of a category it jumps back over the whole previous category to
      its first summary. */
  lemma PrevIndex(p: Position, counts: seq<nat>)
    requires Valid(p, counts)
    ensures p.sub > 0 ==> Index(Prev(p), counts) == Index(p, counts) - 1
    ensures p.sub == 0 && p.category > 0 ==>
      Index(Prev(p), counts) == Index(p, counts) - counts[p.category - 1]
  {
    if p.sub == 0 && p.category > 0 {
      SumStep(counts, p.category - 1);
    }
  }

  /** `prev` undoes `next` inside a category, but not across a category
      boundary once the category has two summaries or more. */
  lemma PrevAfterForward(p: Position, counts: seq<nat>)
    requires Valid(p, counts)
    requires Forward(p, counts).Some?
    ensures p.sub + 1 < counts[p.category] ==> Prev(Forward(p, counts).value) == p
    ensures p.sub + 1 == counts[p.category] ==> Prev(Forward(p, counts).value) == Position(p.category, 0)
  {
  }

  /** Both ends are fixed points. */
  lemma EndsAreStops(counts: seq<nat>)
    requires |counts| > 0 && counts[|counts| - 1] > 0
    ensures Prev(Start) == Start
    ensures Forward(Position(|counts| - 1, counts[|counts| - 1] - 1), counts).None?
  {
  }
}

=== FILE: responses.dfy ===
/** Response parsing (`process_csv_to_3d_list` in main.py): every data row is
    read cell by cell, in the grouped column order of the category map, into a
    tree with one node per category holding the parsed entries. */
module Responses {
  import opened Results
  import opened Text
  import opened Columns
  import opened CategoryMap

  /** One parsed cell: an integer rating, or the raw text of a Feedback column. */
  datatype Entry = Rating(subcategory: string, stars: int) | Remark(subcategory: string, text: string)

  /** One category of the tree with the entries of all rows, row after row. */
  datatype Node = Node(category: Category, entries: seq<Entry>)

  /** Why a row cannot be read; `cell` is the 0-based cell index in the row. A
      missing cell is Python's `IndexError`, a non-numeric rating its `ValueError`. */
  datatype ParseError = MissingCell(row: nat, cell: nat) | NotAnInteger(row: nat, cell: nat)

  predicate AllDigits(s: string) {
    forall i :: 0 <= i < |s| ==> IsDigit(s[i])
  }

  /** The value of a string of decimal digits. */
  function DigitsValue(ds: string): nat
    requires AllDigits(ds)
    decreases |ds|
  {
    if |ds| == 0 then 0
    else 10 * DigitsValue(ds[..|ds| - 1]) + (ds[|ds| - 1] as int - '0' as int)
  }

  /** Python's `int(cell)` on an optional sign followed by decimal digits;
      `None` stands for the `ValueError` it raises on anything else. */
  function ParseInt(s: string): Option<int> {
    if |s| > 1 && (s[0] == '-' || s[0] == '+') && AllDigits(s[1..]) then
      Some(if s[0] == '-' then -(DigitsValue(s[1..]) as int) else DigitsValue(s[1..]))
    else if |s| > 0 && AllDigits(s) then Some(DigitsValue(s))
    else None
  }

  /** The decimal digits of `n`, without leading zeros. */
  function ShowNat(n: nat): (s: string)
    ensures |s| > 0 && AllDigits(s)
    ensures |s| > 1 ==> s[0] != '0'
    decreases n
  {
    var d := ['0' + ((n % 10) as char)];
    if n < 10 then d else ShowNat(n / 10) + d
  }

  /** The decimal text of an integer, as Python's `str` writes it. */
  function Show(i: int): string {
    if i < 0 then "-" + ShowNat(-i) else ShowNat(i)
  }

  lemma {:induction false} DigitsOfShowNat(n: nat)
    ensures DigitsValue(ShowNat(n)) == n
    decreases n
  {
    if n >= 10 {
      DigitsOfShowNat(n / 10);
      var s := ShowNat(n);
      assert s[..|s| - 1] == ShowNat(n / 10);
    }
  }

  /** Parsing the text of an integer gives the integer back. */
  lemma ParseShow(i: int)
    ensures ParseInt(Show(i)) == Some(i)
  {
    if i < 0 {
      DigitsOfShowNat(-i);
      assert Show(i)[1..] == ShowNat(-i);
    } else {
      DigitsOfShowNat(i);
    }
  }

  /** The entry for one cell of column `column` of category `c`: its text for
      Feedback, otherwise its integer value; `None` when the integer does not
      parse. The value is not range-checked. */
  function ReadCell(c: Category, column: string, cell: string): (e: Option<Entry>)
    ensures c == Feedback ==> e == Some(Remark(column, cell))
    ensures c != Feedback ==> (e.Some? <==> ParseInt(cell).Some?)
    ensures c != Feedback && e.Some? ==> e.value == Rating(column, ParseInt(cell).value)
  {
    if c == Feedback then Some(Remark(column, cell))
    else match ParseInt(cell)
      case None => None
      case Some(v) => Some(Rating(column, v))
  }

  /** Cell `k` of the grouped order sits at `row[4 + k]` and can be read. */
  predicate CellOk(slot: Slot, row: seq<string>, k: nat) {
    MetadataColumns + k < |row| && ReadCell(slot.category, slot.column, row[MetadataColumns + k]).Some?
  }

  /** One data row, read in the grouped order `slots`: the `k`-th column reads
      `row[4 + k]`, and the first cell that is missing or does not parse is the
      error (`ParseRowReads` and `ParseRowFirstError` state this). */
  function ParseRow(slots: seq<Slot>, row: seq<string>, index: nat): (res: Result<seq<Entry>, ParseError>)
    ensures res.Ok? ==> |res.value| == |slots|
    ensures res.Err? ==> res.error.row == index
    decreases |slots|
  {
    if |slots| == 0 then Ok([])
    else
      var n := |slots| - 1;
      var slot := slots[n];
      match ParseRow(slots[..n], row, index)
      case Err(e) => Err(e)
      case Ok(es) =>
        if MetadataColumns + n >= |row| then Err(MissingCell(index, MetadataColumns + n))
        else match ReadCell(slot.category, slot.column, row[MetadataColumns + n])
          case None => Err(NotAnInteger(index, MetadataColumns + n))
          case Some(e) => Ok(es + [e])
  }

  /** A row reads exactly when every cell of the grouped order is present and
      parses, and then entry `k` is the cell `row[4 + k]` read for column `k`. */
  lemma {:induction false} ParseRowReads(slots: seq<Slot>, row: seq<string>, index: nat)
    ensures var res := ParseRow(slots, row, index);
      && (res.Ok? <==> forall k :: 0 <= k < |slots| ==> CellOk(slots[k], row, k))
      && (res.Ok? ==> forall k :: 0 <= k < |slots| ==>
            Some(res.value[k]) == ReadCell(slots[k].category, slots[k].column, row[MetadataColumns + k]))
    decreases |slots|
  {
    if |slots| > 0 {
      var n := |slots| - 1;
      var prefix := slots[..n];
      assert forall k :: 0 <= k < n ==> prefix[k] == slots[k];
      ParseRowReads(prefix, row, index);
      var res, pre := ParseRow(slots, row, index), ParseRow(prefix, row, index);
      if pre.Err? {
        var k :| 0 <= k < n && !CellOk(prefix[k], row, k);
        assert !CellOk(slots[k], row, k);
      } else if !CellOk(slots[n], row, n) {
        assert res.Err?;
      } else {
        var e := ReadCell(slots[n].category, slots[n].column, row[MetadataColumns + n]).value;
        assert res == Ok(pre.value + [e]);
      }
    }
  }

  /** A failing row reports its first cell that is missing or does not parse. */
  lemma {:induction false} ParseRowFirstError(slots: seq<Slot>, row: seq<string>, index: nat)
    requires ParseRow(slots, row, index).Err?
    ensures var e := ParseRow(slots, row, index).error;
      && MetadataColumns <= e.cell < MetadataColumns + |slots|
      && !CellOk(slots[e.cell - MetadataColumns], row, e.cell - MetadataColumns)
      && (forall k :: 0 <= k < e.cell - MetadataColumns ==> CellOk(slots[k], row, k))
      && (e.MissingCell? <==> e.cell >= |row|)
    decreases |slots|
  {
    var n := |slots| - 1;
    assert forall k :: 0 <= k < n ==> slots[..n][k] == slots[k];
    ParseRowReads(slots[..n], row, index);
    if ParseRow(slots[..n], row, index).Err? {
      ParseRowFirstError(slots[..n], row, index);
    }
  }

  /** Adds one row's entries to the tree: the block of key `i` in the grouped
      order goes to node `i`. The nodes are created on the first row, in key
      order, so the source's lookup by category name finds node `i`. */
  function AppendRow(m: seq<Group>, t: seq<Node>, es: seq<Entry>): (t': seq<Node>)
    requires |es| == |Grouped(m)|
    requires |t| == 0 || |t| == |m|
    ensures |t'| == |m|
  {
    seq(|m|, i requires 0 <= i < |m| =>
      Node(m[i].category, (if |t| == 0 then [] else t[i].entries) + es[Offset(m, i)..Offset(m, i) + |m[i].columns|]))
  }

  lemma RowMajor(r: nat, n: nat, w: nat, j: nat)
    requires r < n && j < w
    ensures r * w + j < n * w
  {
    assert (r + 1) * w <= n * w;
  }

  /** The block of key `i` of every row of `rs`, row after row. */
  function Blocks(m: seq<Group>, i: nat, rs: seq<seq<Entry>>): (b: seq<Entry>)
    requires i < |m|
    requires forall r :: 0 <= r < |rs| ==> |rs[r]| == |Grouped(m)|
    decreases |rs|
  {
    if |rs| == 0 then []
    else
      var n := |rs| - 1;
      Blocks(m, i, rs[..n]) + rs[n][Offset(m, i)..Offset(m, i) + |m[i].columns|]
  }

  /** The blocks are laid out row-major: entry `r * w + j` is entry
      `Offset(m, i) + j` of row `r`. */
  lemma {:induction false} BlocksRowMajor(m: seq<Group>, i: nat, rs: seq<seq<Entry>>, r: nat, j: nat)
    requires i < |m|
    requires forall r :: 0 <= r < |rs| ==> |rs[r]| == |Grouped(m)|
    requires r < |rs| && j < |m[i].columns|
    ensures |Blocks(m, i, rs)| == |rs| * |m[i].columns|
    ensures r * |m[i].columns| + j < |Blocks(m, i, rs)|
    ensures Blocks(m, i, rs)[r * |m[i].columns| + j] == rs[r][Offset(m, i) + j]
    decreases |rs|
  {
    var n := |rs| - 1;
    var w := |m[i].columns|;
    assert forall q :: 0 <= q < n ==> rs[..n][q] == rs[q];
    BlocksLength(m, i, rs[..n]);
    assert (n + 1) * w == n * w + w;
    if r < n {
      BlocksRowMajor(m, i, rs[..n], r, j);
      RowMajor(r, n, w, j);
    }
  }

  lemma {:induction false} BlocksLength(m: seq<Group>, i: nat, rs: seq<seq<Entry>>)
    requires i < |m|
    requires forall r :: 0 <= r < |rs| ==> |rs[r]| == |Grouped(m)|
    ensures |Blocks(m, i, rs)| == |rs| * |m[i].columns|
    decreases |rs|
  {
    if |rs| > 0 {
      var n := |rs| - 1;
      assert forall q :: 0 <= q < n ==> rs[..n][q] == rs[q];
      BlocksLength(m, i, rs[..n]);
      assert (n + 1) * |m[i].columns| == n * |m[i].columns| + |m[i].columns|;
    }
  }

  /** The tree after rows whose entries in grouped order are `rs`: no nodes when
      there are no rows, otherwise one node per key, in key order, holding that
      key's block of every row. */
  ghost predicate Layout(m: seq<Group>, rs: seq<seq<Entry>>, t: seq<Node>) {
    && (forall r :: 0 <= r < |rs| ==> |rs[r]| == |Grouped(m)|)
    && (|rs| == 0 ==> t == [])
    && (|rs| > 0 ==> |t| == |m| && forall i :: 0 <= i < |m| ==> t[i] == Node(m[i].category, Blocks(m, i, rs)))
  }

  /** Adding one more row keeps the layout. */
  lemma LayoutStep(m: seq<Group>, rs: seq<seq<Entry>>, t: seq<Node>, es: seq<Entry>)
    requires Layout(m, rs, t)
    requires |es| == |Grouped(m)|
    ensures |t| == 0 || |t| == |m|
    ensures Layout(m, rs + [es], AppendRow(m, t, es))
  {
    var rs' := rs + [es];
    assert rs'[..|rs|] == rs;
    var t' := AppendRow(m, t, es);
    forall i | 0 <= i < |m| ensures t'[i] == Node(m[i].category, Blocks(m, i, rs')) {
      if |rs| == 0 {
        assert Blocks(m, i, rs) == [];
      }
    }
  }

  /** All rows read without error (`RowsOkReads` states it row by row). */
  predicate RowsOk(m: seq<Group>, rows: seq<seq<string>>)
    decreases |rows|
  {
    |rows| == 0 ||
    (RowsOk(m, rows[..|rows| - 1]) && ParseRow(Grouped(m), rows[|rows| - 1], |rows| - 1).Ok?)
  }

  /** Every row reads exactly when each row, at its own index, does. */
  lemma {:induction false} RowsOkReads(m: seq<Group>, rows: seq<seq<string>>)
    ensures RowsOk(m, rows) <==> forall r :: 0 <= r < |rows| ==> ParseRow(Grouped(m), rows[r], r).Ok?
    decreases |rows|
  {
    if |rows| > 0 {
      var n := |rows| - 1;
      assert forall r :: 0 <= r < n ==> rows[..n][r] == rows[r];
      RowsOkReads(m, rows[..n]);
    }
  }

  /** The entries of every row, in grouped order. */
  ghost function Parsed(m: seq<Group>, rows: seq<seq<string>>): (rs: seq<seq<Entry>>)
    requires RowsOk(m, rows)
    ensures |rs| == |rows|
    ensures forall r :: 0 <= r < |rows| ==> Ok(rs[r]) == ParseRow(Grouped(m), rows[r], r)
    decreases |rows|
  {
    if |rows| == 0 then []
    else
      var n := |rows| - 1;
      assert forall r :: 0 <= r < n ==> rows[..n][r] == rows[r];
      Parsed(m, rows[..n]) + [ParseRow(Grouped(m), rows[n], n).value]
  }

  /** `process_csv_to_3d_list` after the header: the rows are read in order and
      the first row that cannot be read is the error; otherwise the tree lays
      out every row's entries by key, and no rows give no nodes at all. */
  function BuildTree(m: seq<Group>, rows: seq<seq<string>>): (res: Result<seq<Node>, ParseError>)
    ensures res.Ok? ==> RowsOk(m, rows)
    ensures res.Ok? ==> Layout(m, Parsed(m, rows), res.value)
    decreases |rows|
  {
    if |rows| == 0 then Ok([])
    else
      var n := |rows| - 1;
      match BuildTree(m, rows[..n])
      case Err(e) => Err(e)
      case Ok(t) =>
        match ParseRow(Grouped(m), rows[n], n)
        case Err(e) => Err(e)
        case Ok(es) =>
          BuildStep(m, rows, t, es);
          Ok(AppendRow(m, t, es))
  }

  /** Reading one more row extends the layout by that row. */
  lemma BuildStep(m: seq<Group>, rows: seq<seq<string>>, t: seq<Node>, es: seq<Entry>)
    requires |rows| > 0
    requires RowsOk(m, rows[..|rows| - 1])
    requires Layout(m, Parsed(m, rows[..|rows| - 1]), t)
    requires ParseRow(Grouped(m), rows[|rows| - 1], |rows| - 1) == Ok(es)
    ensures RowsOk(m, rows)
    ensures Layout(m, Parsed(m, rows), AppendRow(m, t, es))
  {
    var n := |rows| - 1;
    assert Parsed(m, rows) == Parsed(m, rows[..n]) + [es];
    LayoutStep(m, Parsed(m, rows[..n]), t, es);
  }

  /** A failed parse reports the error of the first row that cannot be read. */
  lemma {:induction false} BuildTreeFirstError(m: seq<Group>, rows: seq<seq<string>>)
    requires BuildTree(m, rows).Err?
    ensures var e := BuildTree(m, rows).error;
      && e.row < |rows|
      && ParseRow(Grouped(m), rows[e.row], e.row) == Err(e)
      && forall r :: 0 <= r < e.row ==> ParseRow(Grouped(m), rows[r], r).Ok?
    decreases |rows|
  {
    var n := |rows| - 1;
    assert forall r :: 0 <= r < n ==> rows[..n][r] == rows[r];
    if BuildTree(m, rows[..n]).Err? {
      BuildTreeFirstError(m, rows[..n]);
    } else {
      RowsOkReads(m, rows[..n]);
    }
  }

  /** Entry `r * w + j` of node `i` is column `j` of key `i`, read from row `r`
      at its position `4 + Offset(m, i) + j` in the grouped order. */
  lemma TreeReadsCells(m: seq<Group>, rows: seq<seq<string>>, t: seq<Node>, i: nat, r: nat, j: nat)
    requires BuildTree(m, rows) == Ok(t)
    requires i < |m| && r < |rows| && j < |m[i].columns|
    ensures |t| == |m| && r * |m[i].columns| + j < |t[i].entries|
    ensures MetadataColumns + Offset(m, i) + j < |rows[r]|
    ensures Some(t[i].entries[r * |m[i].columns| + j])
      == ReadCell(m[i].category, m[i].columns[j], rows[r][MetadataColumns + Offset(m, i) + j])
  {
    ParsedReadsCells(m, rows, t, i, r, j);
  }

  /** `TreeReadsCells` for a tree laid out from the parsed rows. */
  lemma ParsedReadsCells(m: seq<Group>, rows: seq<seq<string>>, t: seq<Node>, i: nat, r: nat, j: nat)
    requires RowsOk(m, rows) && Layout(m, Parsed(m, rows), t)
    requires i < |m| && r < |rows| && j < |m[i].columns|
    ensures |t| == |m| && r * |m[i].columns| + j < |t[i].entries|
    ensures MetadataColumns + Offset(m, i) + j < |rows[r]|
    ensures Some(t[i].entries[r * |m[i].columns| + j])
      == ReadCell(m[i].category, m[i].columns[j], rows[r][MetadataColumns + Offset(m, i) + j])
  {
    var rs := Parsed(m, rows);
    OffsetSlot(m, i, j);
    RowCell(Grouped(m), rows[r], r, rs[r], Offset(m, i), j);
    LayoutReadsCells(m, rows, rs, t, i, r, j);
  }

  /** `TreeReadsCells` for any tree laid out from rows whose row `r` parsed. */
  lemma LayoutReadsCells(m: seq<Group>, rows: seq<seq<string>>, rs: seq<seq<Entry>>, t: seq<Node>, i: nat, r: nat, j: nat)
    requires |rs| == |rows| && Layout(m, rs, t)
    requires i < |m| && r < |rows| && j < |m[i].columns|
    requires Offset(m, i) + j < |rs[r]| && MetadataColumns + Offset(m, i) + j < |rows[r]|
    requires Some(rs[r][Offset(m, i) + j])
      == ReadCell(m[i].category, m[i].columns[j], rows[r][MetadataColumns + Offset(m, i) + j])
    ensures |t| == |m|
    ensures t[i].category == m[i].category
    ensures |t[i].entries| == |rows| * |m[i].columns|
    ensures r * |m[i].columns| + j < |t[i].entries|
    ensures Some(t[i].entries[r * |m[i].columns| + j])
      == ReadCell(m[i].category, m[i].columns[j], rows[r][MetadataColumns + Offset(m, i) + j])
  {
    LayoutEntry(m, rs, t, i, r, j);
  }

  /** Entry `r * w + j` of node `i` of a layout is entry `Offset(m, i) + j` of row `r`. */
  lemma LayoutEntry(m: seq<Group>, rs: seq<seq<Entry>>, t: seq<Node>, i: nat, r: nat, j: nat)
    requires Layout(m, rs, t)
    requires i < |m| && r < |rs| && j < |m[i].columns|
    ensures |t| == |m|
    ensures t[i].category == m[i].category
    ensures |t[i].entries| == |rs| * |m[i].columns|
    ensures r * |m[i].columns| + j < |t[i].entries|
    ensures Offset(m, i) + j < |rs[r]|
    ensures t[i].entries[r * |m[i].columns| + j] == rs[r][Offset(m, i) + j]
  {
    BlocksRowMajor(m, i, rs, r, j);
    LayoutNode(m, rs, t, i);
  }

  /** Entry `start + j` of a parsed row is the cell `row[4 + start + j]` read
      for the slot at that place of the grouped order. */
  lemma RowCell(g: seq<Slot>, row: seq<string>, index: nat, es: seq<Entry>, start: nat, j: nat)
    requires ParseRow(g, row, index) == Ok(es) && start + j < |g|
    ensures |es| == |g| && MetadataColumns + start + j < |row|
    ensures Some(es[start + j]) == ReadCell(g[start + j].category, g[start + j].column, row[MetadataColumns + start + j])
  {
    var k := start + j;
    ParseRowReads(g, row, index);
    assert CellOk(g[k], row, k);
    assert MetadataColumns + start + j == MetadataColumns + k;
  }

  lemma LayoutNode(m: seq<Group>, rs: seq<seq<Entry>>, t: seq<Node>, i: nat)
    requires Layout(m, rs, t) && |rs| > 0 && i < |m|
    ensures |t| == |m| && t[i].category == m[i].category && t[i].entries == Blocks(m, i, rs)
  {
  }

  /** The row and column of position `k` in a row-major layout of width `w`. */
  lemma Split(k: nat, n: nat, w: nat) returns (r: nat, j: nat)
    requires w > 0 && k < n * w
    ensures r < n && j < w && k == r * w + j
  {
    r, j := k / w, k % w;
    if r >= n {
      MulMono(n, r, w);
    }
  }

  lemma MulMono(a: nat, b: nat, w: nat)
    requires a <= b
    ensures a * w <= b * w
  {
  }

  /** The shape of a built tree: no nodes without rows, otherwise one node per
      key, each holding one entry per row and column of that key. */
  lemma TreeShape(m: seq<Group>, rows: seq<seq<string>>)
    requires BuildTree(m, rows).Ok?
    ensures var t := BuildTree(m, rows).value;
      && (|rows| == 0 ==> t == [])
      && (|rows| > 0 ==> |t| == |m|)
      && forall i :: 0 <= i < |t| ==>
           t[i].category == m[i].category && |t[i].entries| == |rows| * |m[i].columns|
  {
    var t := BuildTree(m, rows).value;
    forall i | 0 <= i < |t|
      ensures t[i].category == m[i].category && |t[i].entries| == |rows| * |m[i].columns|
    {
      BlocksLength(m, i, Parsed(m, rows));
    }
  }

  /** Every entry of node `i` was read from some column `j` of key `i`. */
  lemma NodeEntryColumn(m: seq<Group>, rows: seq<seq<string>>, i: nat, k: nat)
    requires BuildTree(m, rows).Ok?
    requires i < |BuildTree(m, rows).value|
    requires k < |BuildTree(m, rows).value[i].entries|
    ensures i < |m|
    ensures exists j, cell :: (0 <= j < |m[i].columns| &&
      Some(BuildTree(m, rows).value[i].entries[k]) == ReadCell(m[i].category, m[i].columns[j], cell))
  {
    TreeShape(m, rows);
    var w := |m[i].columns|;
    var n := |rows|;
    var r, j := Split(k, n, w);
    TreeReadsCells(m, rows, BuildTree(m, rows).value, i, r, j);
  }

  /** The whole parse of main.py: categorise the header, then read the rows. */
  function ParseSurvey(header: seq<string>, rows: seq<seq<string>>): Result<seq<Node>, ParseError> {
    BuildTree(CategorizeColumns(header), rows)
  }
}

=== FILE: results.dfy ===
/** Failure-carrying values used across the pipeline in place of Python's
    `None` returns and raised exceptions. */
module Results {

  datatype Option<+T> = None | Some(value: T)

  datatype Result<+T, +E> = Ok(value: T) | Err(error: E)
}

=== FILE: scoring.dfy ===
/** The score of the current subcategory (main.py, the block shared by
    `open_csv` and `update_subcategory_data`): star percentages, the weighted
    average of the ratings and the four-level verdict with its colour. Python
    floats are exact reals here. */
module Scoring {
  import opened Aggregation

  /** Sum of each rating times its number of votes. */
  function WeightedSum(h: Histogram): nat {
    1 * h[0] + 2 * h[1] + 3 * h[2] + 4 * h[3] + 5 * h[4]
  }

  /** `votes / total * 100` of main.py, or 0 when `total` is 0. */
  function Percent(votes: nat, total: nat): (p: real)
    requires votes <= total
    ensures total == 0 ==> p == 0.0
    ensures 0.0 <= p <= 100.0
    ensures p * (total as real) == (votes as real) * 100.0
  {
    if total > 0 then
      var q := votes as real / total as real;
      QuotientBounds(votes as real, total as real);
      q * 100.0
    else 0.0
  }

  lemma PercentScaled(votes: nat, total: nat)
    requires votes <= total
    ensures Percent(votes, total) * (total as real) == (votes as real) * 100.0
  {
  }

  lemma QuotientBounds(x: real, t: real)
    requires t > 0.0 && 0.0 <= x <= t
    ensures 0.0 <= x / t <= 1.0 && (x / t) * t == x
  {
    var q := x / t;
    assert q * t == x;
    if q < 0.0 {
      MulPos(-q, t);
    }
    if q > 1.0 {
      MulPos(q - 1.0, t);
    }
  }

  lemma MulPos(a: real, b: real)
    requires a > 0.0 && b > 0.0
    ensures a * b > 0.0
  {
  }

  /** A bucket never holds more than all the votes. */
  lemma BucketAtMostTotal(h: Histogram, b: nat)
    requires b < 5
    ensures h[b] <= Total(h)
  {
  }

  /** Share of the votes in each bucket, in percent; all zero without votes. */
  function Percentages(h: Histogram): (p: seq<real>)
    ensures |p| == 5
    ensures Total(h) == 0 ==> forall b :: 0 <= b < 5 ==> p[b] == 0.0
    ensures forall b :: 0 <= b < 5 ==> 0.0 <= p[b] <= 100.0
  {
    var t := Total(h);
    seq(5, b requires 0 <= b < 5 =>
      BucketAtMostTotal(h, b);
      Percent(h[b], t))
  }

  /** Each share times the number of votes is its bucket's votes times 100. */
  lemma PercentagesProportional(h: Histogram)
    ensures forall b :: 0 <= b < 5 ==>
      Percentages(h)[b] * (Total(h) as real) == (h[b] as real) * 100.0
  {
    forall b | 0 <= b < 5
      ensures Percentages(h)[b] * (Total(h) as real) == (h[b] as real) * 100.0
    {
      ShareScaled(h, b);
    }
  }

  lemma ShareScaled(h: Histogram, b: nat)
    requires b < 5
    ensures Percentages(h)[b] * (Total(h) as real) == (h[b] as real) * 100.0
  {
    var t := Total(h);
    BucketAtMostTotal(h, b);
    assert Percentages(h)[b] == Percent(h[b], t);
    PercentScaled(h[b], t);
  }

  /** With votes the percentages add up to exactly 100. */
  lemma PercentagesSumTo100(h: Histogram)
    requires Total(h) > 0
    ensures var p := Percentages(h); p[0] + p[1] + p[2] + p[3] + p[4] == 100.0
  {
    var p := Percentages(h);
    var t := Total(h) as real;
    PercentagesProportional(h);
    assert (p[0] + p[1] + p[2] + p[3] + p[4]) * t
      == (h[0] as real + h[1] as real + h[2] as real + h[3] as real + h[4] as real) * 100.0;
  }

  /** More votes in a bucket never gives it a smaller share. */
  lemma PercentagesMonotone(h: Histogram, a: nat, b: nat)
    requires a < 5 && b < 5 && h[a] <= h[b]
    ensures Percentages(h)[a] <= Percentages(h)[b]
  {
    BucketAtMostTotal(h, b);
    PercentMonotone(h[a], h[b], Total(h));
  }

  lemma PercentMonotone(x: nat, y: nat, t: nat)
    requires x <= y <= t
    ensures Percent(x, t) <= Percent(y, t)
  {
    if t > 0 {
      ScaledLe(Percent(x, t), Percent(y, t), t as real, (x as real) * 100.0, (y as real) * 100.0);
    }
  }

  /** Shares of the same total compare like their counts. */
  lemma PercentOrder(x: nat, y: nat, t: nat)
    requires x <= t && y <= t && t > 0
    ensures Percent(x, t) <= Percent(y, t) <==> x <= y
  {
    if x <= y {
      PercentMonotone(x, y, t);
    } else {
      PercentMonotone(y, x, t);
    }
  }

  lemma ScaledLe(x: real, y: real, t: real, a: real, b: real)
    requires t > 0.0 && x * t == a && y * t == b && a <= b
    ensures x <= y
  {
    if x > y {
      MulPos(x - y, t);
    }
  }

  /** The weighted average rating; 0 without votes. */
  function Average(h: Histogram): (avg: real)
    ensures Total(h) == 0 ==> avg == 0.0
    ensures Total(h) > 0 ==> 1.0 <= avg <= 5.0
    ensures avg * (Total(h) as real) == WeightedSum(h) as real
  {
    var t := Total(h);
    if t > 0 then
      var tr, w := t as real, WeightedSum(h) as real;
      assert tr <= w <= 5.0 * tr;
      AverageBounds(w, tr);
      w / tr
    else 0.0
  }

  lemma AverageBounds(w: real, t: real)
    requires t > 0.0 && t <= w <= 5.0 * t
    ensures 1.0 <= w / t <= 5.0 && (w / t) * t == w
  {
    var q := w / t;
    assert q * t == w;
    if q < 1.0 {
      MulPos(1.0 - q, t);
      assert false;
    }
    if q > 5.0 {
      MulPos(q - 5.0, t);
      assert false;
    }
  }

  /** The four verdicts shown for a subcategory, best first. */
  datatype Verdict = VerySatisfactory | Satisfactory | NeedsImprovement | NeedsEnhancement
  {
    function Text(): string {
      match this
      case VerySatisfactory => "Very Satisfactory"
      case Satisfactory => "Satisfactory"
      case NeedsImprovement => "Needs Improvement"
      case NeedsEnhancement => "Needs Enhancement"
    }

    /** The colour token the verdict is drawn in. */
    function Colour(): string {
      match this
      case VerySatisfactory => "#00FF00"
      case Satisfactory => "#FFA500"
      case NeedsImprovement => "#FFCC00"
      case NeedsEnhancement => "#FF0000"
    }

    /** 3 for the best verdict down to 0 for the worst. */
    function Level(): nat {
      match this
      case VerySatisfactory => 3
      case Satisfactory => 2
      case NeedsImprovement => 1
      case NeedsEnhancement => 0
    }
  }

  /** The threshold ladder of main.py: 4.8, 3.5 and 2.5, each inclusive. */
  function Rate(avg: real): (v: Verdict)
    ensures v == VerySatisfactory <==> avg >= 4.8
    ensures v == Satisfactory <==> 3.5 <= avg < 4.8
    ensures v == NeedsImprovement <==> 2.5 <= avg < 3.5
    ensures v == NeedsEnhancement <==> avg < 2.5
  {
    if avg >= 4.8 then VerySatisfactory
    else if 3.5 <= avg < 4.8 then Satisfactory
    else if 2.5 <= avg < 3.5 then NeedsImprovement
    else NeedsEnhancement
  }

  /** A higher average never gets a worse verdict. */
  lemma RateMonotone(a: real, b: real)
    requires a <= b
    ensures Rate(a).Level() <= Rate(b).Level()
  {
  }

  /** The verdict of a histogram. */
  function Judge(h: Histogram): Verdict {
    Rate(Average(h))
  }

  /** The verdict in whole numbers: with `t` votes of weighted sum `w`, the
      average is at least 4.8 exactly when `5w >= 24t`, at least 3.5 exactly
      when `2w >= 7t` and at least 2.5 exactly when `2w >= 5t`; a subcategory
      without votes gets the lowest verdict. */
  lemma JudgeByCounts(h: Histogram)
    ensures var t, w := Total(h), WeightedSum(h);
      && (Judge(h) == VerySatisfactory <==> t > 0 && 5 * w >= 24 * t)
      && (Judge(h) == Satisfactory <==> t > 0 && 2 * w >= 7 * t && 5 * w < 24 * t)
      && (Judge(h) == NeedsImprovement <==> t > 0 && 2 * w >= 5 * t && 2 * w < 7 * t)
      && (Judge(h) == NeedsEnhancement <==> t == 0 || 2 * w < 5 * t)
  {
    var t, w := Total(h), WeightedSum(h);
    if t > 0 {
      var avg := Average(h);
      var tr := t as real;
      assert avg * tr == w as real;
      ScaledCompare(avg, tr, 4.8, w as real);
      ScaledCompare(avg, tr, 3.5, w as real);
      ScaledCompare(avg, tr, 2.5, w as real);
    }
  }

  /** Comparing a quotient with a threshold by cross-multiplying. */
  lemma ScaledCompare(avg: real, t: real, bound: real, w: real)
    requires t > 0.0 && avg * t == w
    ensures avg >= bound <==> w >= bound * t
  {
    if avg >= bound {
      if avg > bound {
        MulPos(avg - bound, t);
      }
    } else {
      MulPos(bound - avg, t);
    }
  }

  /** The edges of the ladder: four fives and a four average exactly 4.8 and
      are very satisfactory, a second four drops the average below it; no votes
      at all, or a single one, are the lowest verdict. */
  lemma JudgeBoundary()
    ensures Judge([0, 0, 0, 1, 4]) == VerySatisfactory
    ensures Judge([0, 0, 0, 2, 4]) == Satisfactory
    ensures Judge([0, 0, 0, 0, 0]) == NeedsEnhancement
    ensures Judge([1, 0, 0, 0, 0]) == NeedsEnhancement
    ensures Judge([0, 1, 1, 0, 0]) == NeedsImprovement
  {
    JudgeByCounts([0, 0, 0, 1, 4]);
    JudgeByCounts([0, 0, 0, 2, 4]);
    JudgeByCounts([0, 0, 0, 0, 0]);
    JudgeByCounts([1, 0, 0, 0, 0]);
    JudgeByCounts([0, 1, 1, 0, 0]);
  }
}

=== FILE: sentiment.dfy ===
/** The sentiment half of `open_csv` in main.py: find the comment column, label
    every comment with the classifier (overridden to "Neutral" when it is unsure
    either way), then count the labels and pick the dominant one. The trained
    classifier is opaque: it enters as four functions. */
module Sentiment {
  import opened Results
  import opened Text
  import opened Scoring

  /** Both class probabilities must stay below this for the neutral override. */
  const NeutralThreshold: real := 0.58

  /** The loaded vectorizer, model and label encoder, as the four operations
      the pipeline calls on them. */
  datatype Classifier<!F> = Classifier(
    vectorize: string -> F,
    probabilities: F -> (real, real),
    predict: F -> int,
    decode: int -> string)

  /** The classifier is not confident either way. */
  predicate Unsure(p: (real, real)) {
    p.0 < NeutralThreshold && p.1 < NeutralThreshold
  }

  /** When the two probabilities are a distribution, the override only fires
      when both lie strictly between 0.42 and 0.58. */
  lemma UnsureNearEven(p: (real, real))
    requires 0.0 <= p.0 && 0.0 <= p.1 && p.0 + p.1 == 1.0
    ensures Unsure(p) <==> 0.42 < p.0 < 0.58 && 0.42 < p.1 < 0.58
  {
  }

  /** The label of one comment. */
  function Label<F>(clf: Classifier<F>, comment: string): (s: string)
    ensures Unsure(clf.probabilities(clf.vectorize(comment))) ==> s == "Neutral"
    ensures !Unsure(clf.probabilities(clf.vectorize(comment))) ==> s == clf.decode(clf.predict(clf.vectorize(comment)))
  {
    var features := clf.vectorize(comment);
    if Unsure(clf.probabilities(features)) then "Neutral"
    else clf.decode(clf.predict(features))
  }

  /** One label per comment, in order. */
  function Labels<F>(clf: Classifier<F>, comments: seq<string>): (ls: seq<string>)
    ensures |ls| == |comments|
    ensures forall i :: 0 <= i < |ls| ==> ls[i] == Label(clf, comments[i])
  {
    seq(|comments|, i requires 0 <= i < |comments| => Label(clf, comments[i]))
  }

  /** How many labels equal `tag`. */
  function Count(ls: seq<string>, tag: string): (n: nat)
    ensures n <= |ls|
    decreases |ls|
  {
    if |ls| == 0 then 0
    else Count(ls[..|ls| - 1], tag) + (if ls[|ls| - 1] == tag then 1 else 0)
  }

  lemma CountSnoc(ls: seq<string>, tag: string)
    requires |ls| > 0
    ensures Count(ls, tag) == Count(ls[..|ls| - 1], tag) + (if ls[|ls| - 1] == tag then 1 else 0)
  {
  }

  /** `Count` is the number of occurrences of `tag` among the labels. */
  lemma {:induction false} CountIsMultiplicity(ls: seq<string>, tag: string)
    ensures Count(ls, tag) == multiset(ls)[tag]
    decreases |ls|
  {
    if |ls| > 0 {
      var prefix := ls[..|ls| - 1];
      CountIsMultiplicity(prefix, tag);
      assert ls == prefix + [ls[|ls| - 1]];
    }
  }

  /** One of the three labels that are counted. */
  predicate Counted(tag: string) {
    tag == "Positive" || tag == "Negative" || tag == "Neutral"
  }

  /** The three counts never exceed the number of rows, and they add up to it
      exactly when every label is "Positive", "Negative" or "Neutral". */
  lemma {:induction false} CountsCoverRows(ls: seq<string>)
    ensures Count(ls, "Positive") + Count(ls, "Negative") + Count(ls, "Neutral") <= |ls|
    ensures Count(ls, "Positive") + Count(ls, "Negative") + Count(ls, "Neutral") == |ls|
      <==> forall i :: 0 <= i < |ls| ==> Counted(ls[i])
    decreases |ls|
  {
    if |ls| > 0 {
      var n := |ls| - 1;
      var prefix := ls[..n];
      CountsCoverRows(prefix);
      CountSnoc(ls, "Positive");
      CountSnoc(ls, "Negative");
      CountSnoc(ls, "Neutral");
      assert forall i :: 0 <= i < n ==> prefix[i] == ls[i];
      if forall i :: 0 <= i < |ls| ==> Counted(ls[i]) {
        assert forall i :: 0 <= i < n ==> Counted(prefix[i]);
      } else if forall i :: 0 <= i < n ==> Counted(prefix[i]) {
        assert !Counted(ls[n]);
      }
    }
  }

  /** The three moods in the order the percentage dictionary lists them. */
  datatype Mood = Positive | Neutral | Negative
  {
    function Name(): string {
      match this
      case Positive => "POSITIVE"
      case Neutral => "NEUTRAL"
      case Negative => "NEGATIVE"
    }
  }

  /** `max(percentages, key=percentages.get)`: the largest share, and on a tie
      the mood listed first. */
  function Dominant(positive: real, neutral: real, negative: real): (m: Mood)
    ensures m == Positive <==> positive >= neutral && positive >= negative
    ensures m == Neutral <==> neutral > positive && neutral >= negative
    ensures m == Negative <==> negative > positive && negative > neutral
  {
    var (best, top) := if neutral > positive then (Neutral, neutral) else (Positive, positive);
    if negative > top then Negative else best
  }

  /** The dominant mood is the same whether it is taken over the percentages
      or over the raw counts. */
  lemma DominantOfCounts(positive: nat, neutral: nat, negative: nat, rows: nat)
    requires positive + neutral + negative <= rows
    ensures rows > 0 ==>
      Dominant(Percent(positive, rows), Percent(neutral, rows), Percent(negative, rows))
        == Dominant(positive as real, neutral as real, negative as real)
    ensures rows == 0 ==>
      Dominant(Percent(positive, rows), Percent(neutral, rows), Percent(negative, rows)) == Positive
  {
    if rows > 0 {
      PercentOrder(positive, neutral, rows);
      PercentOrder(neutral, positive, rows);
      PercentOrder(positive, negative, rows);
      PercentOrder(negative, positive, rows);
      PercentOrder(neutral, negative, rows);
      PercentOrder(negative, neutral, rows);
    }
  }

  /** The words searched for in the column names, in priority order. */
  const CommentKeywords: seq<string> := ["comment", "comments", "review", "text"]

  /** The column name `key` contains `word`, ignoring case. */
  predicate Names(key: string, word: string) {
    Contains(Lower(key), word)
  }

  /** The first column whose lower-cased name contains `word`. */
  function FirstNaming(keys: seq<string>, word: string): (r: Option<nat>)
    ensures r.Some? ==> (r.value < |keys| && Names(keys[r.value], word)
      && forall k :: 0 <= k < r.value ==> !Names(keys[k], word))
    ensures r.None? ==> forall k :: 0 <= k < |keys| ==> !Names(keys[k], word)
    decreases |keys|
  {
    if |keys| == 0 then None
    else
      match FirstNaming(keys[..|keys| - 1], word)
      case Some(k) =>
        assert keys[..|keys| - 1][k] == keys[k];
        assert forall j :: 0 <= j < k ==> keys[..|keys| - 1][j] == keys[j];
        Some(k)
      case None =>
        assert forall j :: 0 <= j < |keys| - 1 ==> keys[..|keys| - 1][j] == keys[j];
        if Names(keys[|keys| - 1], word) then Some(|keys| - 1) else None
  }

  /** Where the comments are: the index of the keyword that found them and
      the index of the column. */
  datatype Match = Match(keyword: nat, column: nat)

  /** No column name contains any of the keywords `CommentKeywords[w..]`. */
  predicate NoneFrom(keys: seq<string>, w: nat)
    requires w <= |CommentKeywords|
  {
    forall v, k :: w <= v < |CommentKeywords| && 0 <= k < |keys| ==> !Names(keys[k], CommentKeywords[v])
  }

  /** The keyword search from keyword `w` on. */
  function FindFrom(keys: seq<string>, w: nat): (r: Option<Match>)
    requires w <= |CommentKeywords|
    ensures r.Some? ==> w <= r.value.keyword < |CommentKeywords| && r.value.column < |keys|
    ensures r.Some? ==> Names(keys[r.value.column], CommentKeywords[r.value.keyword])
    ensures r.Some? ==> forall k :: 0 <= k < r.value.column ==> !Names(keys[k], CommentKeywords[r.value.keyword])
    ensures r.Some? ==> forall v, k :: w <= v < r.value.keyword && 0 <= k < |keys| ==> !Names(keys[k], CommentKeywords[v])
    ensures r.None? <==> NoneFrom(keys, w)
    decreases |CommentKeywords| - w
  {
    if w == |CommentKeywords| then None
    else
      match FirstNaming(keys, CommentKeywords[w])
      case Some(k) => Some(Match(w, k))
      case None => FindFrom(keys, w + 1)
  }

  /** The comment-column discovery of `open_csv`: keywords in priority order,
      and for each the first column whose name contains it. */
  function FindComments(keys: seq<string>): (r: Option<Match>)
    ensures r.Some? ==> r.value.keyword < |CommentKeywords| && r.value.column < |keys|
    ensures r.Some? ==> Names(keys[r.value.column], CommentKeywords[r.value.keyword])
    ensures r.None? <==> NoneFrom(keys, 0)
  {
    FindFrom(keys, 0)
  }

  /** The keyword "comments" never decides anything: a column naming it also
      names "comment", which is tried first. */
  lemma PluralNeverDecides(keys: seq<string>)
    ensures FindComments(keys).Some? ==> FindComments(keys).value.keyword != 1
  {
    var r := FindComments(keys);
    if r.Some? && r.value.keyword == 1 {
      var key := keys[r.value.column];
      ContainsPrefix(Lower(key), "comments", "comment");
      assert false;
    }
  }

  /** No rows, or no comment column: the one failure of the sentiment pass. */
  datatype MissingColumn = MissingColumn

  /** What the sentiment pass shows: the label of every row, the three counts
      and shares, the dominant mood and its share cut to a whole number. */
  datatype Report = Report(
    labels: seq<string>,
    positive: nat,
    negative: nat,
    neutral: nat,
    positiveShare: real,
    neutralShare: real,
    negativeShare: real,
    dominant: Mood,
    dominantShare: int)

  /** The share of the dominant mood. */
  function ShareOf(m: Mood, positive: real, neutral: real, negative: real): real {
    match m
    case Positive => positive
    case Neutral => neutral
    case Negative => negative
  }

  /** The report over the labels `ls`. */
  function Summarise(ls: seq<string>): (r: Report)
    ensures r.labels == ls
    ensures r.positive == multiset(ls)["Positive"]
    ensures r.negative == multiset(ls)["Negative"]
    ensures r.neutral == multiset(ls)["Neutral"]
    ensures r.positive + r.negative + r.neutral <= |ls|
    ensures r.positiveShare == Percent(r.positive, |ls|)
    ensures r.neutralShare == Percent(r.neutral, |ls|)
    ensures r.negativeShare == Percent(r.negative, |ls|)
    ensures r.dominant == Dominant(r.positiveShare, r.neutralShare, r.negativeShare)
    ensures r.dominantShare == ShareOf(r.dominant, r.positiveShare, r.neutralShare, r.negativeShare).Floor
    ensures 0 <= r.dominantShare <= 100
    ensures |ls| > 0 ==> r.dominant == Dominant(r.positive as real, r.neutral as real, r.negative as real)
  {
    var n := |ls|;
    var positive, negative, neutral := Count(ls, "Positive"), Count(ls, "Negative"), Count(ls, "Neutral");
    CountsCoverRows(ls);
    CountIsMultiplicity(ls, "Positive");
    CountIsMultiplicity(ls, "Negative");
    CountIsMultiplicity(ls, "Neutral");
    var pp, up, np := Percent(positive, n), Percent(neutral, n), Percent(negative, n);
    var m := Dominant(pp, up, np);
    DominantOfCounts(positive, neutral, negative, n);
    Report(ls, positive, negative, neutral, pp, up, np, m, ShareOf(m, pp, up, np).Floor)
  }

  /** The sentiment pass of `open_csv` over the comment file's column names
      `keys` and its rows (cells in column order). */
  function Analyze<F>(clf: Classifier<F>, keys: seq<string>, rows: seq<seq<string>>): (r: Result<Report, MissingColumn>)
    requires forall i :: 0 <= i < |rows| ==> |rows[i]| == |keys|
    ensures r.Err? <==> |rows| == 0 || FindComments(keys).None?
    ensures r.Ok? ==> |r.value.labels| == |rows|
    ensures r.Ok? ==> forall i :: 0 <= i < |rows| ==>
      r.value.labels[i] == Label(clf, rows[i][FindComments(keys).value.column])
    ensures r.Ok? ==> r.value == Summarise(r.value.labels)
  {
    if |rows| == 0 then Err(MissingColumn)
    else
      match FindComments(keys)
      case None => Err(MissingColumn)
      case Some(found) =>
        var comments := seq(|rows|, i requires 0 <= i < |rows| => rows[i][found.column]);
        Ok(Summarise(Labels(clf, comments)))
  }
}

=== FILE: seqs.dfy ===
/** Facts about sequences the pipeline's insertion-ordered dictionaries need. */
module Seqs {

  predicate Distinct<T(==)>(s: seq<T>) {
    forall i, j :: 0 <= i < j < |s| ==> s[i] != s[j]
  }

  /** Index of the first occurrence of `x` in `s`, or `|s|` when it is absent. */
  function FirstIndex<T(==)>(s: seq<T>, x: T): (k: nat)
    ensures k <= |s|
    ensures k < |s| <==> x in s
    ensures k < |s| ==> s[k] == x && x !in s[..k]
  {
    if |s| == 0 then 0
    else if s[0] == x then 0
    else
      assert s[1..][..FirstIndex(s[1..], x)] == s[..FirstIndex(s[1..], x) + 1][1..];
      1 + FirstIndex(s[1..], x)
  }

  /** `keys` holds the distinct values of `s`, each once, ordered by where each
      first occurs in `s`: the key order of a Python dictionary filled from `s`. */
  ghost predicate FirstSeenOrder<T>(keys: seq<T>, s: seq<T>) {
    && Distinct(keys)
    && (forall i :: 0 <= i < |keys| ==> keys[i] in s)
    && (forall k :: 0 <= k < |s| ==> s[k] in keys)
    && (forall i, j :: 0 <= i < j < |keys| ==> FirstIndex(s, keys[i]) < FirstIndex(s, keys[j]))
  }

  lemma FirstIndexAppend<T>(s: seq<T>, x: T, y: T)
    ensures y in s ==> FirstIndex(s + [x], y) == FirstIndex(s, y)
    ensures y !in s && y == x ==> FirstIndex(s + [x], y) == |s|
  {
    if y in s {
      var j := FirstIndex(s, y);
      assert (s + [x])[j] == y;
      assert (s + [x])[..j] == s[..j];
    } else if y == x {
      assert (s + [x])[|s|] == y;
      assert (s + [x])[..|s|] == s;
    }
  }

  /** Appending `x` to the source keeps the first-seen order, adding `x` as the
      last key exactly when it was not yet a key. */
  lemma FirstSeenOrderAppend<T>(keys: seq<T>, s: seq<T>, x: T)
    requires FirstSeenOrder(keys, s)
    ensures x in keys ==> FirstSeenOrder(keys, s + [x])
    ensures x !in keys ==> FirstSeenOrder(keys + [x], s + [x])
  {
    forall y | y in s {
      FirstIndexAppend(s, x, y);
    }
    if x !in keys {
      var keys' := keys + [x];
      assert x !in s;
      FirstIndexAppend(s, x, x);
      forall i, j | 0 <= i < j < |keys'|
        ensures FirstIndex(s + [x], keys'[i]) < FirstIndex(s + [x], keys'[j])
      {
        if j == |keys| {
          assert keys'[i] in s;
        }
      }
      forall k | 0 <= k < |s| + 1
        ensures (s + [x])[k] in keys'
      {
        if k < |s| {
          assert (s + [x])[k] == s[k];
        }
      }
    } else {
      forall k | 0 <= k < |s| + 1
        ensures (s + [x])[k] in keys
      {
        if k < |s| {
          assert (s + [x])[k] == s[k];
        }
      }
    }
  }
}

=== FILE: session.dfy ===
/** The widget's survey state between button presses (`open_csv`,
    `next_subcategory`, `prev_subcategory` and `update_subcategory_data` in
    main.py): the parsed tree and the cursor into it, and the screen both
    determine. */
module Session {
  import opened Results
  import opened CategoryMap
  import opened Responses
  import opened Aggregation
  import opened Scoring
  import opened Display
  import opened Navigation

  datatype Session = Session(tree: seq<Node>, pos: Position)

  /** No category of the tree makes aggregation raise. */
  predicate WellRated(tree: seq<Node>) {
    forall i :: 0 <= i < |tree| ==> Aggregable(tree[i].entries)
  }

  /** The aggregated list of category `i`. */
  function Summaries(tree: seq<Node>, i: nat): seq<Summary>
    requires WellRated(tree) && i < |tree|
  {
    Subcategories(Aggregate(tree[i].entries))
  }

  /** The length of every category's aggregated list. */
  function Counts(tree: seq<Node>): (counts: seq<nat>)
    requires WellRated(tree)
    ensures |counts| == |tree|
    ensures forall i :: 0 <= i < |tree| ==> counts[i] == |Summaries(tree, i)|
  {
    seq(|tree|, i requires 0 <= i < |tree| => |Summaries(tree, i)|)
  }

  /** Loading a survey: the parsed tree with the cursor on its first summary,
      or the parse error (which the source raises out of `open_csv`). */
  function Load(header: seq<string>, rows: seq<seq<string>>): (r: Result<Session, ParseError>)
    ensures r.Ok? <==> ParseSurvey(header, rows).Ok?
    ensures r.Ok? ==> r.value.pos == Start && r.value.tree == ParseSurvey(header, rows).value
  {
    match ParseSurvey(header, rows)
    case Ok(tree) => Ok(Session(tree, Start))
    case Err(e) => Err(e)
  }

  /** `update_subcategory_data`: the screen of the summary under the cursor,
      or nothing when the cursor is off the tree or off the list. */
  function View(s: Session): (screen: Option<Screen>)
    requires WellRated(s.tree)
    ensures screen.Some? <==> Valid(s.pos, Counts(s.tree))
    ensures screen.Some? ==> screen.value.category == s.tree[s.pos.category].category
    ensures screen.Some? ==> screen.value.counts == Summaries(s.tree, s.pos.category)[s.pos.sub].stars
    ensures screen.Some? ==>
      screen.value.subcategory == StripNumbering(Summaries(s.tree, s.pos.category)[s.pos.sub].subcategory)
    ensures screen.Some? ==> screen.value.percentages == Percentages(screen.value.counts)
    ensures screen.Some? ==> screen.value.verdict == Judge(screen.value.counts)
  {
    if s.pos.category < |s.tree| then
      var list := Summaries(s.tree, s.pos.category);
      if s.pos.sub < |list| then Some(Present(s.tree[s.pos.category].category, list[s.pos.sub]))
      else None
    else None
  }

  /** `next_subcategory`; nothing when there is no next summary. Like the
      source, it needs only the current category's aggregated list (its
      `sub_category_list`) and the number of categories. */
  function Forward(s: Session): (r: Option<Session>)
    requires s.pos.category < |s.tree| && Aggregable(s.tree[s.pos.category].entries)
    ensures r.Some? <==> Next(s.pos, |Subcategories(Aggregate(s.tree[s.pos.category].entries))|, |s.tree|).Some?
    ensures r.Some? ==> r.value.tree == s.tree
    ensures r.Some? ==> r.value.pos == Next(s.pos, |Subcategories(Aggregate(s.tree[s.pos.category].entries))|, |s.tree|).value
    ensures WellRated(s.tree) ==> (r.Some? <==> Navigation.Forward(s.pos, Counts(s.tree)).Some?)
    ensures WellRated(s.tree) && r.Some? ==> r.value.pos == Navigation.Forward(s.pos, Counts(s.tree)).value
  {
    var list := Subcategories(Aggregate(s.tree[s.pos.category].entries));
    match Next(s.pos, |list|, |s.tree|)
    case Some(p) => Some(s.(pos := p))
    case None => None
  }

  /** `prev_subcategory`. */
  function Back(s: Session): (r: Session)
    ensures r.tree == s.tree && r.pos == Prev(s.pos)
    ensures s.pos == Start <==> r == s
  {
    s.(pos := Prev(s.pos))
  }

  /** On a session that shows a summary, next moves one summary on in the
      flattened list of all summaries, and there is no next exactly at the
      last one. */
  lemma ForwardAdvances(s: Session)
    requires WellRated(s.tree) && Valid(s.pos, Counts(s.tree)) && Populated(Counts(s.tree))
    ensures var counts := Counts(s.tree);
      && (Forward(s).None? <==> Index(s.pos, counts) == Sum(counts) - 1)
      && (Forward(s).Some? ==> Index(Forward(s).value.pos, counts) == Index(s.pos, counts) + 1)
  {
    ForwardIsSuccessor(s.pos, Counts(s.tree));
  }

  /** On a session that shows a summary, previous moves back one place in the
      flattened list inside a category, and from a category's first summary
      it jumps back over the whole previous category. */
  lemma BackRetreats(s: Session)
    requires WellRated(s.tree) && Valid(s.pos, Counts(s.tree))
    ensures var counts := Counts(s.tree);
      && (s.pos.sub > 0 ==> Index(Back(s).pos, counts) == Index(s.pos, counts) - 1)
      && (s.pos.sub == 0 && s.pos.category > 0 ==>
          Index(Back(s).pos, counts) == Index(s.pos, counts) - counts[s.pos.category - 1])
  {
    PrevIndex(s.pos, Counts(s.tree));
  }

  /** A session whose every category shows something and whose cursor is on
      a summary. */
  predicate Showing(s: Session) {
    && WellRated(s.tree)
    && Populated(Counts(s.tree))
    && Valid(s.pos, Counts(s.tree))
  }

  /** A survey with at least one response and one classified column loads into
      a session that shows its first summary. */
  lemma LoadShows(header: seq<string>, rows: seq<seq<string>>)
    requires Load(header, rows).Ok?
    requires |Load(header, rows).value.tree| > 0
    requires WellRated(Load(header, rows).value.tree)
    ensures Showing(Load(header, rows).value)
    ensures View(Load(header, rows).value).Some?
  {
    var tree := ParseSurvey(header, rows).value;
    TreeShape(CategorizeColumns(header), rows);
    var counts := Counts(tree);
    forall i | 0 <= i < |tree| ensures counts[i] > 0 {
      NodeNonEmpty(header, rows, i);
      SubcategoriesNonEmpty(tree[i].entries);
    }
  }

  /** Pressing next or previous never leaves a showing session. */
  lemma MovesKeepShowing(s: Session)
    requires Showing(s)
    ensures Showing(Back(s)) && View(Back(s)).Some?
    ensures Forward(s).Some? ==> Showing(Forward(s).value) && View(Forward(s).value).Some?
  {
    MovesStayValid(s.pos, Counts(s.tree));
  }
}

=== FILE: text.dfy ===
/** The few Python `str` operations the survey pipeline relies on, restricted to
    ASCII: lower-casing, removing spaces, stripping whitespace and the substring
    test `keyword in text`. */
module Text {

  /** Python's `str.isspace` on ASCII: the space, tab to carriage return, and the
      information separators 0x1C-0x1F. The regular-expression class `\s` matches
      the same characters. */
  predicate IsSpace(c: char) {
    c == ' ' || (9 <= c as int <= 13) || (28 <= c as int <= 31)
  }

  predicate IsDigit(c: char) {
    '0' <= c <= '9'
  }

  predicate IsUpper(c: char) {
    'A' <= c <= 'Z'
  }

  function LowerChar(c: char): (d: char)
    ensures !IsUpper(d)
  {
    if IsUpper(c) then (c as int + 32) as char else c
  }

  /** `str.lower()`; only ASCII letters change. */
  function Lower(s: string): (r: string)
    ensures |r| == |s|
    ensures forall i :: 0 <= i < |s| ==> r[i] == LowerChar(s[i])
    ensures forall i :: 0 <= i < |r| ==> !IsUpper(r[i])
  {
    seq(|s|, i requires 0 <= i < |s| => LowerChar(s[i]))
  }

  /** `str.replace(" ", "")`. */
  function RemoveSpaces(s: string): (r: string)
    ensures ' ' !in r
    ensures |r| <= |s|
    ensures forall c :: c in r ==> c in s
    ensures ' ' !in s ==> r == s
  {
    if |s| == 0 then []
    else (if s[0] == ' ' then [] else [s[0]]) + RemoveSpaces(s[1..])
  }

  /** Removing spaces keeps every other character as often as it occurs
      (and `RemoveSpacesAppend` keeps them in order). */
  lemma {:induction false} RemoveSpacesKeepsOthers(s: string)
    ensures forall c :: c != ' ' ==> multiset(RemoveSpaces(s))[c] == multiset(s)[c]
    decreases |s|
  {
    if |s| > 0 {
      RemoveSpacesKeepsOthers(s[1..]);
      assert s == [s[0]] + s[1..];
    }
  }

  /** Removing spaces works piecewise, so the kept characters stay in order. */
  lemma {:induction false} RemoveSpacesAppend(a: string, b: string)
    ensures RemoveSpaces(a + b) == RemoveSpaces(a) + RemoveSpaces(b)
    decreases |a|
  {
    if |a| > 0 {
      assert (a + b)[1..] == a[1..] + b;
      RemoveSpacesAppend(a[1..], b);
    } else {
      assert a + b == b;
    }
  }

  /** Drops leading whitespace: what is removed is all whitespace and what is
      kept does not start with whitespace. */
  function StripLeading(s: string): (r: string)
    ensures |r| <= |s| && r == s[|s| - |r|..]
    ensures forall i :: 0 <= i < |s| - |r| ==> IsSpace(s[i])
    ensures |r| > 0 ==> !IsSpace(r[0])
  {
    if |s| > 0 && IsSpace(s[0]) then StripLeading(s[1..]) else s
  }

  /** Drops trailing whitespace, symmetric to `StripLeading`. */
  function StripTrailing(s: string): (r: string)
    ensures |r| <= |s| && r == s[..|r|]
    ensures forall i :: |r| <= i < |s| ==> IsSpace(s[i])
    ensures |r| > 0 ==> !IsSpace(r[|r| - 1])
  {
    if |s| > 0 && IsSpace(s[|s| - 1]) then StripTrailing(s[..|s| - 1]) else s
  }

  /** `r` is what `str.strip()` leaves of `s` when the kept part starts at
      index `i`: a slice of `s` with only whitespace on either side of it, which
      neither starts nor ends with whitespace. */
  predicate StrippedAt(s: string, r: string, i: nat) {
    && i + |r| <= |s|
    && r == s[i..i + |r|]
    && (forall k :: 0 <= k < i ==> IsSpace(s[k]))
    && (forall k :: i + |r| <= k < |s| ==> IsSpace(s[k]))
    && (|r| > 0 ==> !IsSpace(r[0]) && !IsSpace(r[|r| - 1]))
  }

  /** `str.strip()` with no argument (`StripIsStripped` says exactly what it
      removes). */
  function Strip(s: string): (r: string)
    ensures |r| <= |s|
    ensures forall c :: c in r ==> c in s
    ensures |r| > 0 ==> !IsSpace(r[0]) && !IsSpace(r[|r| - 1])
  {
    var t := StripLeading(s);
    var r := StripTrailing(t);
    SliceMembers(s, |s| - |t|, r);
    r
  }

  lemma SliceMembers(s: string, i: nat, r: string)
    requires i + |r| <= |s| && r == s[i..i + |r|]
    ensures forall c :: c in r ==> c in s
  {
    forall c | c in r
      ensures c in s
    {
      var k :| 0 <= k < |r| && r[k] == c;
      assert s[i + k] == c;
    }
  }

  /** `Strip` removes exactly the whitespace on either side: its result is a
      stripping of the input in the sense of `StrippedAt`. */
  lemma StripIsStripped(s: string)
    ensures exists i: nat :: StrippedAt(s, Strip(s), i)
  {
    var t := StripLeading(s);
    var r := StripTrailing(t);
    StrippedFromPieces(s, t, r);
    assert Strip(s) == r;
  }

  /** Stripping the front and then the back is a stripping of the whole. */
  lemma StrippedFromPieces(s: string, t: string, r: string)
    requires |t| <= |s| && t == s[|s| - |t|..]
    requires forall k :: 0 <= k < |s| - |t| ==> IsSpace(s[k])
    requires |r| <= |t| && r == t[..|r|]
    requires forall k :: |r| <= k < |t| ==> IsSpace(t[k])
    requires |r| > 0 ==> !IsSpace(r[0]) && !IsSpace(r[|r| - 1])
    ensures StrippedAt(s, r, |s| - |t|)
  {
    var i := |s| - |t|;
    assert r == s[i..i + |r|];
    forall k | i + |r| <= k < |s|
      ensures IsSpace(s[k])
    {
      assert s[k] == t[k - i];
    }
  }

  /** Only one string is a stripping of `s`, so the contract of `Strip`
      determines its result. */
  lemma StrippedUnique(s: string, r1: string, i1: nat, r2: string, i2: nat)
    requires StrippedAt(s, r1, i1) && StrippedAt(s, r2, i2)
    ensures r1 == r2
  {
    if |r1| > 0 && |r2| > 0 {
      assert s[i1] == r1[0] && s[i2] == r2[0];
      assert i1 == i2;
      var e1, e2 := i1 + |r1| - 1, i2 + |r2| - 1;
      assert s[e1] == r1[|r1| - 1] && s[e2] == r2[|r2| - 1];
      assert e1 == e2;
    }
  }

  /** The header normalisation of main.py: `text.lower().replace(" ", "").strip()`. */
  function Simplify(s: string): (r: string)
    ensures |r| <= |s|
    ensures ' ' !in r
    ensures forall i :: 0 <= i < |r| ==> !IsUpper(r[i])
    ensures |r| > 0 ==> !IsSpace(r[0]) && !IsSpace(r[|r| - 1])
  {
    var lowered := Lower(s);
    var r := Strip(RemoveSpaces(lowered));
    assert forall i :: 0 <= i < |r| ==> r[i] in lowered;
    r
  }

  /** The normalised name is the lower-cased name with its spaces removed and
      then stripped: together with `Lower`, `RemoveSpacesKeepsOthers`,
      `RemoveSpacesAppend` and `StrippedUnique` this pins down every character
      of the result. */
  lemma SimplifyIsStripped(s: string)
    ensures exists i: nat :: StrippedAt(RemoveSpaces(Lower(s)), Simplify(s), i)
  {
    var t := RemoveSpaces(Lower(s));
    assert Simplify(s) == Strip(t);
    StripIsStripped(t);
  }

  lemma LowerOfLowered(s: string)
    requires forall i :: 0 <= i < |s| ==> !IsUpper(s[i])
    ensures Lower(s) == s
  {
  }

  lemma StripOfStripped(s: string)
    requires |s| > 0 ==> !IsSpace(s[0]) && !IsSpace(s[|s| - 1])
    ensures Strip(s) == s
  {
  }

  /** Normalising a header twice is the same as normalising it once, so the
      categorisation of a normalised name never changes on re-run. */
  lemma SimplifyIdempotent(s: string)
    ensures Simplify(Simplify(s)) == Simplify(s)
  {
    var t := Simplify(s);
    LowerOfLowered(t);
    StripOfStripped(t);
  }

  /** Python's substring test `keyword in text`. */
  predicate Contains(text: string, keyword: string)
    decreases |text|
  {
    keyword <= text || (|text| > 0 && Contains(text[1..], keyword))
  }

  /** An occurrence of a keyword is also an occurrence of each of its prefixes. */
  lemma {:induction false} ContainsPrefix(text: string, keyword: string, prefix: string)
    requires Contains(text, keyword)
    requires prefix <= keyword
    ensures Contains(text, prefix)
    decreases |text|
  {
    if keyword <= text {
      assert prefix <= text;
    } else {
      ContainsPrefix(text[1..], keyword, prefix);
    }
  }

  /** A non-empty keyword occurs only in a non-empty text. */
  lemma {:induction false} ContainsNonEmpty(text: string, keyword: string)
    requires Contains(text, keyword)
    requires |keyword| > 0
    ensures |text| >= |keyword|
    decreases |text|
  {
    if !(keyword <= text) {
      ContainsNonEmpty(text[1..], keyword);
    }
  }
}
